=== FILE: README.md ===
# mutclip core, modelled in Dafny

mutclip is a "mutual clipboard": browser clients attached to the same clipboard
identifier share one text or file value through a server. This project models
the small, sequential pieces of its code as pure functions over immutable data,
and proves what they promise:

- **client identifier entry** (`IdentifierInput`, `InputBox`): a buffer of at most six
  characters edited at a cursor, exactly one focused box, the `xx-xx-xx` formatting
  and when a lookup starts;
- **client notification queue** (`MessageQueue`): push, mark-as-leaving and remove as
  list transforms that keep ids unique and descending;
- **Python server** (`PyClipboard`, `PyServer`): the clipboard registry, identifier
  generation, the cleanup sweep, and the Socket.IO handlers as a state machine that
  returns the new registry and the events it emits;
- **Rust server** (`RustEngine`, `RustResult`): identifier generation, `check`,
  `connect`'s registry effect and the error-to-message mapping;
- **Go server** (`GoClipboard`, `GoErrors`, `GoNetRouter`, `GoNetMsg`, `GoMsg`,
  `GoProto`, `Pb`): clipboard generation and `Connect`, public errors, the router's
  registry and dispatch, message constructors, the JSON parsers, and the protobuf
  `Message` oneof with its nil-safe getters.

Randomness (identifier characters, UUIDs, channels) is passed in: a generator loop
becomes "the first draw not already in the map", and `None` stands for a draw
sequence that runs out before a fresh id appears. Codecs (protobuf, JSON) are
parameters too; for JSON, what is modelled is how a decoded document binds to the
Go structs. A nil Go pointer is `None`.

Two gaps in the code are resolved as follows:

- The generated Go `Error` struct has only `Desc`
  (server/pkg/pb/clip/clip.pb.go:346-351), but server/pkg/net/msg.go:37,41 sets
  `Fatal`. `Pb.Error` carries a `fatal` flag; messages built without it have `false`.
- server/main.py:3 imports `FileBuffer` from `clipboard`, but server/clipboard.py does
  not define it. The model's `PyClipboard.FileBuffer` is therefore an assumption: it
  has the fields the handlers read and write (`num_chunks`, `content_type`,
  `filename`, `data`, `next_chunk`), and a fresh buffer starts with empty data and
  chunk 0 expected.

The files: `wrappers.dfy` (Option, Result), `scalars.dfy` (byte, int32),
`identifier_input.dfy`, `input_box.dfy`, `message_queue.dfy`, `py_clipboard.dfy`,
`py_server.dfy`, `pb.dfy`, `rust_result.dfy`, `rust_engine.dfy`, `go_errors.dfy`,
`go_clipboard.dfy`, `go_net_msg.dfy`, `go_net_router.dfy`, `go_msg.dfy`, `go_proto.dfy`.

## Model

| member | source | states |
|---|---|---|
| IdentifierInput.Next | client/src/app/components/IdentifierInput.tsx:18-20 | below six characters the old input is a prefix of the result and `c` its suffix; at six or more the input is unchanged |
| IdentifierInput.Prev | client/src/app/components/IdentifierInput.tsx:22-24 | a non-empty input loses exactly its last character; an empty input is unchanged |
| IdentifierInput.PrevAfterNext | client/src/app/components/IdentifierInput.tsx:18-24 | `Prev` undoes a successful one-character `Next` |
| IdentifierInput.NextStaysBounded | client/src/app/components/IdentifierInput.tsx:18-20 | with one-character input the buffer never exceeds six characters, and a full buffer ignores `Next` |
| IdentifierInput.Format | client/src/app/components/IdentifierInput.tsx:33 | the looked-up id has length 8, dashes at indices 2 and 5, and its other six characters are the input in order |
| IdentifierInput.FormatRemoveDashes | client/src/app/components/IdentifierInput.tsx:33 | deleting the dashes of the formatted id gives back a dash-free input |
| IdentifierInput.OnInputChange | client/src/app/components/IdentifierInput.tsx:28-33 | every input change clears `notFound`; a lookup starts iff the length is exactly six, and it is for `Format(input)` |
| IdentifierInput.Step | client/src/app/components/IdentifierInput.tsx:18-42 | keystrokes never fail: a typed character updates the buffer as `next` does and Backspace as `prev` does; when the buffer changes, a lookup starts iff it now holds six characters, and it is for the formatted id; a keystroke that leaves the buffer unchanged (full buffer, or Backspace on an empty one) keeps the state and starts no lookup; `notFound` becomes true only from a truthy lookup answer (or stays true while the input is unchanged); a falsy answer is the thrown error and an answer leaves the buffer alone |
| IdentifierInput.TypedThenBackspace | client/src/app/components/IdentifierInput.tsx:18-33 | typing one character into a non-full buffer and pressing Backspace restores the text with `notFound` cleared; the keystroke that fills the buffer starts the lookup, and Backspace starts none |
| InputBox.ActiveIsCursor | client/src/app/components/InputBox.tsx:17-19 | for a cursor before the end, box `i` is active iff `i` is the cursor |
| InputBox.ActiveWhenFull | client/src/app/components/InputBox.tsx:17-19 | with the cursor at `count`, only the last box is active |
| InputBox.ExactlyOneActive | client/src/app/components/InputBox.tsx:17-19 | for any cursor in `0..count` with `count >= 1`, the set of active boxes is exactly one box |
| InputBox.IsActive | client/src/app/components/InputBox.tsx:17-19 | the `isActive` test; its property is stated by `InputBox.ExactlyOneActive`: exactly one box is active for every cursor |
| InputBox.CharInput | client/src/app/components/InputBox.tsx:27-37 | a typed value changes the buffer only if, lower-cased, it is a single `[a-z0-9]` character, and then it is appended; otherwise nothing changes |
| InputBox.KeyDown | client/src/app/components/InputBox.tsx:38 | Backspace removes the last character and leaves an empty buffer empty; every other key leaves the buffer alone |
| InputBox.Display | client/src/app/components/InputBox.tsx:34 | a box shows the character at its index, or nothing past the end of the buffer |
| InputBox.ShownIsInput | client/src/app/components/InputBox.tsx:34 | read left to right, the boxes show exactly the typed buffer |
| InputBox.InputPreservesWellFormed | client/src/app/components/InputBox.tsx:27-38 | typing and Backspace keep the buffer at most six identifier characters, whatever is typed |
| MessageQueue.Empty | client/contexts/MessageQueueContext.tsx:26-27 | the initial queue satisfies the id invariant |
| MessageQueue.Push | client/contexts/MessageQueueContext.tsx:29-33 | one entry longer; the head carries the message, the current counter as id and animation 0; the counter grows by one; older entries keep order, id and message and age by one |
| MessageQueue.MarkLeaving | client/contexts/MessageQueueContext.tsx:41 | the entries with the given id get animation -1, every other entry is unchanged |
| MessageQueue.Scheduled | client/contexts/MessageQueueContext.tsx:36-39 | nothing is scheduled for an empty list; otherwise the head's id |
| MessageQueue.RemoveSpec | client/contexts/MessageQueueContext.tsx:42 | removal keeps exactly the entries with a different id |
| MessageQueue.Remove | client/contexts/MessageQueueContext.tsx:42 | the `filter` update: no longer, no entry with the removed id, and only entries of the original list (exact contents in `MessageQueue.RemoveSpec`) |
| MessageQueue.RemoveUnique | client/contexts/MessageQueueContext.tsx:42 | on a descending-id list, removing entry k's id deletes that entry only and keeps the rest in order |
| MessageQueue.PushPreservesValid | client/contexts/MessageQueueContext.tsx:29-33 | pushing keeps ids strictly descending and below the counter |
| MessageQueue.MarkPreservesValid | client/contexts/MessageQueueContext.tsx:41 | marking keeps the id invariant |
| MessageQueue.RemovePreservesValid | client/contexts/MessageQueueContext.tsx:42 | removing keeps the id invariant |
| MessageQueue.RetireHead | client/contexts/MessageQueueContext.tsx:36-43 | the two timed updates for the scheduled id leave exactly the old tail |
| PyClipboard.NewClip | server/clipboard.py:11-13 | a new clipboard has empty contents and no clients |
| PyClipboard.Decimal | server/clipboard.py:23 | `str` of a number is 1 to 3 digits for 0..999, without a leading zero |
| PyClipboard.DecimalRoundTrip | server/clipboard.py:23 | parsing the rendered number gives it back |
| PyClipboard.FormatIdShape | server/clipboard.py:20-23 | an id is three lower-case letters, '-', three lower-case letters, '-', and the decimal form of the drawn 0..999 |
| PyClipboard.GenerateId | server/clipboard.py:15-25 | the result is the first drawn id not already a clipboard, has the id shape, and is `None` exactly when every draw collides |
| PyClipboard.Sweep | server/clipboard.py:30-33 | one sweep removes exactly the clipboards without clients and leaves the others untouched |
| PyClipboard.SweepPreservesInv | server/clipboard.py:30-33 | the sweep keeps every registered client pointing at a clipboard that lists it |
| PyServer.ListTarget | server/main.py:73 | an empty recipient list addresses every connected session; a non-empty one exactly its members |
| PyServer.NewClipRoute | server/main.py:10-19 | `newclip` returns exactly the id `generate_id` produces (none iff every draw collides), and registers an empty clipboard under it, which was not in use and has the generated shape |
| PyServer.HandleConnect | server/main.py:21-39 | an unknown id gets `noclipboard` and no change; a known id gains the session as client, the reverse map points it there, and the session is sent the current text; nothing else changes (buffer included) and the handler returns no acknowledgement |
| PyServer.HandleDisconnect | server/main.py:41-55 | an unknown session gets `error` and no change; a known one leaves its clipboard's clients and the reverse map, nothing else changes, and there is no acknowledgement |
| PyServer.HandleText | server/main.py:57-79 | an unregistered sender gets `error` and no change; otherwise the contents become the text, which goes to every other client of the clipboard and never the sender, then `sync` to the sender; no acknowledgement |
| PyServer.HandleFile | server/main.py:81-97 | an unregistered sender gets `error` and no change; otherwise the clipboard gets a fresh buffer for the header; no acknowledgement |
| PyServer.HandleChunk | server/main.py:99-122 | an unregistered sender gets `error`; no buffer or `index != next_chunk` gets `wrongchunk` and no change; otherwise the data is appended, `next_chunk` grows by one and the answer is true iff more chunks remain |
| PyServer.HandleTextAsWritten | server/main.py:72-73 | when the sender is alone, the text is emitted to every connected session |
| PyServer.HandleChunkAsWritten | server/main.py:112-116 | a chunk for a clipboard that never received a header raises AttributeError; otherwise it behaves as `HandleChunk` |
| PyServer.LoneSenderGetsOwnText | server/main.py:72-73 | a concrete lone sender receives its own text back |
| PyServer.ChunkBeforeHeaderRaises | server/main.py:112-116 | a concrete chunk before any header raises instead of answering `wrongchunk` |
| PyServer.TextNeverEchoes | server/main.py:72-73 | the sender is never among the recipients of its text |
| PyServer.NoRaiseUnderInv | server/main.py:46-112 | while every registered session points at a clipboard that lists it, no handler raises |
| PyServer.NewClipPreservesInv | server/main.py:14-15 | registering a new clipboard keeps both registry invariants |
| PyServer.ConnectPreservesInv | server/main.py:32-35 | connect keeps every session pointing at a clipboard that lists it, and for a new session also the converse |
| PyServer.DisconnectPreservesInv | server/main.py:50-55 | disconnect keeps both registry invariants and never raises under them |
| PyServer.DataHandlersPreserveInv | server/main.py:57-122 | `text`, `file` and `chunk` keep both registry invariants |
| Pb.Reset | server/pkg/pb/clip/clip.pb.go:38-39 | after `Reset` no case is set and every case getter is nil |
| Pb.GetMsg | server/pkg/pb/clip/clip.pb.go:68-73 | nil on a nil message, otherwise the set case |
| Pb.GetText | server/pkg/pb/clip/clip.pb.go:75-82 | non-nil iff the message is non-nil, its case is Text and the payload is non-nil, and then it is that payload |
| Pb.GetHdr | server/pkg/pb/clip/clip.pb.go:84-91 | the same for the Hdr case |
| Pb.GetChunk | server/pkg/pb/clip/clip.pb.go:93-100 | the same for the Chunk case |
| Pb.GetAck | server/pkg/pb/clip/clip.pb.go:102-109 | non-nil iff the case is Ack with a non-nil payload |
| Pb.GetErr | server/pkg/pb/clip/clip.pb.go:111-118 | the same for the Err case |
| Pb.OneofGetters | server/pkg/pb/clip/clip.pb.go:75-118 | at most one case getter is non-nil, and exactly one when the set case has a payload |
| Pb.GetTextData | server/pkg/pb/clip/clip.pb.go:191-196 | "" on nil, otherwise the data |
| Pb.GetFilename | server/pkg/pb/clip/clip.pb.go:237-242 | "" on nil, otherwise the file name |
| Pb.GetContentType | server/pkg/pb/clip/clip.pb.go:244-249 | "" on nil, otherwise the content type |
| Pb.GetNumChunks | server/pkg/pb/clip/clip.pb.go:251-256 | 0 on nil, otherwise the chunk count |
| Pb.GetIndex | server/pkg/pb/clip/clip.pb.go:296-301 | 0 on nil, otherwise the index |
| Pb.GetChunkData | server/pkg/pb/clip/clip.pb.go:303-308 | nil on nil, otherwise the data |
| Pb.GetDesc | server/pkg/pb/clip/clip.pb.go:383-388 | "" on nil, otherwise the description |
| Pb.NilMessageDefaults | server/pkg/pb/clip/clip.pb.go:68-118 | reading through a nil message yields nil payloads, empty strings and zeros |
| Pb.ResetClearsCases | server/pkg/pb/clip/clip.pb.go:38-39 | every case getter is nil on a reset message |
| Pb.ErrorMessageGetters | server/pkg/pb/clip/clip.pb.go:111-118 | an error message's only non-nil getter is `GetErr`, returning its description and flag |
| RustResult.Serialize | server/src/result.rs:16-22 | the only case is Err; "Invalid ID", "Unexpected message" whatever the payload, or "Internal Server Error" for `InvalidCid` and `Unknown` |
| RustResult.SerializeByClass | server/src/result.rs:17-21 | two errors serialize alike iff they are of the same class, so payloads never reach the client |
| RustResult.FromStd | server/src/result.rs:25-29 | every converted standard error is `Unknown` and serializes to "Internal Server Error" |
| RustEngine.NewEngine | server/src/engine.rs:42-46 | a new engine has no clipboards |
| RustEngine.Start | server/src/engine.rs:126-134 | a new clipboard has empty contents and no clients |
| RustEngine.ToAsciiLowercase | server/src/engine.rs:57 | alphanumeric samples become lower-case letters or digits |
| RustEngine.SpreadSix | server/src/engine.rs:58-65 | six characters are laid out as `ab-cd-ef` |
| RustEngine.IdOfShape | server/src/engine.rs:54-66 | a generated id has length 8, dashes at 2 and 5, lower-case alphanumerics elsewhere, and those are the six lower-cased samples |
| RustEngine.Generate | server/src/engine.rs:48-78 | the id was not a key before, has the id shape, is the first non-colliding draw, and the map gains exactly that entry with an empty clipboard |
| RustEngine.Connect | server/src/engine.rs:85-122 | an unknown id gives `InvalidId` and no change; a known id gains the client (one more when it is new) and nothing else changes |
| RustEngine.Check | server/src/engine.rs:80-83 | whether the id is registered; `RustEngine.ConnectAgreesWithCheck` states that `connect` succeeds exactly on the ids it accepts |
| RustEngine.ConnectAgreesWithCheck | server/src/engine.rs:80-92 | `connect` succeeds exactly on the ids `check` accepts |
| RustEngine.GenerateThenConnect | server/src/engine.rs:68-83 | a generated id passes `check` and its first client is the only one |
| GoErrors.PublicErr | server/pkg/clipboard/error.go:7-9 | the wrapper is public and embeds the given error |
| GoErrors.PublicClassification | server/pkg/clipboard/error.go:11-14 | nil and plain errors are not public; exactly the `PublicErr` wrappers are |
| GoErrors.IsPublic | server/pkg/clipboard/error.go:11-14 | the type assertion; `GoErrors.PublicClassification` states it holds exactly for `PublicErr` wrappers |
| GoErrors.PublicErrKeepsText | server/pkg/clipboard/error.go:3-5 | a wrapped error, at any depth, has the text of the error it wraps |
| GoClipboard.Part | server/pkg/clipboard/clipboard.go:61-66 | a draw below 26 is that letter of the alphabet, otherwise the digit `x-26` |
| GoClipboard.GoId | server/pkg/clipboard/clipboard.go:69 | the id has 8 characters, dashes at 2 and 5, and the six parts in order |
| GoClipboard.Initialize | server/pkg/clipboard/clipboard.go:74-82 | stores an empty-text clipboard with its channel and a nil `sends` map, replacing any previous entry |
| GoClipboard.InitializeWithSends | server/pkg/clipboard/clipboard.go:74-82 | the same with an empty `sends` map |
| GoClipboard.Generate | server/pkg/clipboard/clipboard.go:57-72 | returns the formatted id and stores it with empty text, overwriting any existing entry, other entries unchanged |
| GoClipboard.GenerateWithSends | server/pkg/clipboard/clipboard.go:57-72 | the same, registering a clipboard whose `sends` map exists |
| GoClipboard.GetClip | server/pkg/clipboard/clipboard.go:84-92 | the stored clipboard, or the panic "bad id" |
| GoClipboard.Connect | server/pkg/clipboard/clipboard.go:94-109 | an unknown id returns the error "bad id"; a nil `sends` map returns nil channel and nil error; otherwise the channel is returned and the sender joins `sends` |
| GoClipboard.ConnectUnknownFails | server/pkg/clipboard/clipboard_test.go:6-9 | connecting to "id" fails with "bad id" before and after a generation |
| GoClipboard.ConnectAfterGenerateLosesChannel | server/pkg/clipboard/clipboard.go:103-106 | as written, connecting to a generated clipboard gives no error, no channel, and registers nothing |
| GoClipboard.ConnectAfterGenerateWithSends | server/pkg/clipboard/clipboard.go:103-106 | with the map made, connecting returns the clipboard's channel and registers the sender |
| GoNetMsg.In | server/pkg/net/msg.go:16-25 | a decoded message is tagged with exactly the given cid; a decode failure is passed on with no message |
| GoNetMsg.OutThenIn | server/pkg/net/msg.go:16-34 | with a codec that reads back what it writes, a message sent by `Out` arrives through `In` unchanged and tagged with the receiving cid |
| GoNetMsg.Out | server/pkg/net/msg.go:27-34 | the marshalled bytes; `GoNetMsg.OutThenIn` states that `In` reads them back as the same message |
| GoNetMsg.ErrorReachesPeer | server/pkg/net/msg.go:16-42 | the peer of an `Err` or `Fatal` message reads back the error's text and the fatal flag |
| GoNetMsg.Err | server/pkg/net/msg.go:36-38 | the only set case is Err, with the error's text and fatal false |
| GoNetMsg.Fatal | server/pkg/net/msg.go:40-42 | the only set case is Err, with the error's text and fatal true |
| GoNetMsg.ErrFatalDifferOnlyInFlag | server/pkg/net/msg.go:36-42 | `Err` and `Fatal` differ, and only in the fatal flag |
| GoNetRouter.NewRouter | server/pkg/net/net.go:38-44 | a new router has no connections and no tunnels |
| GoNetRouter.Connect | server/pkg/net/net.go:46-67 | the returned cid is registered with the given output; tunnels are unchanged |
| GoNetRouter.Send | server/pkg/net/net.go:69-83 | an unknown cid gives `InvalidCid` and no delivery; a known one gets exactly `m` on its output |
| GoNetRouter.Broadcast | server/pkg/net/net.go:85-105 | `m` goes to every registered cid outside `except` and to none inside it |
| GoNetRouter.OpenTunnel | server/pkg/net/net.go:107-175 | an existing tunnel gives `DuplicateTun` before the connection is checked; no connection gives `InvalidCid`; otherwise it succeeds, registering exactly one tunnel for the cid |
| GoNetRouter.Route | server/pkg/net/net.go:184-209 | a message whose cid has a tunnel goes to that tunnel's inbox only, any other to the drain |
| GoNetRouter.BroadcastAgreesWithSend | server/pkg/net/net.go:69-105 | a broadcast reaches a cid exactly when a direct send would, with the same delivery |
| GoNetRouter.ConnectThenSend | server/pkg/net/net.go:46-83 | after `Connect`, a send to the new cid reaches the given output |
| GoNetRouter.InThenRoute | server/pkg/net/net.go:184-209 | a frame `In` decodes goes to the tunnel of the connection it arrived on, or to the drain if there is none |
| GoNetRouter.TunnelCapturesRoute | server/pkg/net/net.go:107-209 | once a tunnel is open its cid's messages go to it, others route as before, and a second tunnel is refused |
| GoMsg.In | server/pkg/msg/msg.go:18-27 | a decoded message carries exactly the given sid; a decode failure gives an error and no message |
| GoMsg.Err | server/pkg/msg/msg.go:38-40 | the Err case holds the error's text and no other case getter is non-nil |
| GoMsg.OutThenIn | server/pkg/msg/msg.go:18-36 | with a codec that reads back what it writes, a message sent by `Out` arrives through `In` unchanged and tagged with the session |
| GoMsg.Out | server/pkg/msg/msg.go:29-36 | the marshalled bytes; `GoMsg.OutThenIn` states that `In` reads them back as the same message |
| GoMsg.ErrorReachesPeer | server/pkg/msg/msg.go:18-40 | the receiver of an `Err` message reads back the error's text, with the fatal flag unset |
| GoProto.StringField | server/pkg/proto/proto.go:24-32 | a string field succeeds iff the key is absent, null or a string; it binds the string and keeps "" for absent or null |
| GoProto.IntField | server/pkg/proto/proto.go:33 | an int field succeeds iff the key is absent, null or an in-range integer; it binds the integer and keeps 0 for absent or null |
| GoProto.ParseJson | server/pkg/proto/proto.go:47-50 | a binary message is refused before decoding; a text message succeeds iff the codec decodes it. The source unmarshals straight into the target struct; the model splits that step, so field type errors surface in `BindText`/`BindHdr`, and `ParseText`/`ParseHdr` accept the same frames as the source |
| GoProto.ParseText | server/pkg/proto/proto.go:52-63 | succeeds iff the message is text, decodes and binds with type `MSG_TEXT` |
| GoProto.ParseHdr | server/pkg/proto/proto.go:65-76 | succeeds iff the message is text, decodes and binds with type `MSG_HDR` |
| GoProto.SerializeJson | server/pkg/proto/proto.go:78-86 | a non-binary message holding the encoding |
| GoProto.Text | server/pkg/proto/proto.go:88-91 | non-binary, carrying the encoding of type `MSG_TEXT` with the given data |
| GoProto.Err | server/pkg/proto/proto.go:93-95 | non-binary, carrying the encoding of type `MSG_ERR` with the error's text |
| GoProto.Errf | server/pkg/proto/proto.go:97-99 | a text frame carrying the encoded error object whose description is the formatted string |
| GoProto.TextRoundTrip | server/pkg/proto/proto.go:52-91 | with a codec that reads back what it wrote, `ParseText` of `Text(s)` yields `s` and `ParseHdr` of it fails |
| GoProto.ErrfCarriesFormattedText | server/pkg/proto/proto.go:93-99 | an `Errf` frame decodes to an object of type `MSG_ERR` whose `desc` is the formatted text, and neither parser accepts it |
| GoProto.ErrorFrameRejected | server/pkg/proto/proto.go:52-95 | an error message is neither text nor a header to the parsers |

## Findings

| source | as written | input that shows it | evidently intended | confidence | as-written member | corrected member |
|---|---|---|---|---|---|---|
| server/main.py:112-116 | `Clipboard()` never assigns `buffer`, so reading it for a clipboard without a prior `file` event raises AttributeError before the `not buffer` test | an attached client sends `chunk` index 0 before any `file` | answer `wrongchunk`, as the `not buffer` test shows | medium (FileBuffer's module is not part of this model), not executed | PyServer.HandleChunkAsWritten | PyServer.HandleChunk |
| server/main.py:72-73 | `emit('text', data, to=others)` with an empty `others`: Flask-SocketIO treats the falsy list as no recipient, which broadcasts to every connected session, the sender included | a client alone on its clipboard sends `text` | send to nobody when no other client is attached | medium (library behaviour), not executed | PyServer.HandleTextAsWritten | PyServer.HandleText |
| server/pkg/clipboard/clipboard.go:77-80 | `initialize` leaves `sends` nil; `Connect` then panics writing into the nil map, the panic is a runtime error rather than a string, so the deferred recover drops it and `Connect` returns a nil channel and a nil error | `Connect(Generate(), send)` | make `sends` in `initialize`, return `clip.recv` and register `send` | high, not executed | GoClipboard.ConnectAfterGenerateLosesChannel | GoClipboard.ConnectAfterGenerateWithSends |

## Left out

- The client's synchronisation state machine, chunker, debounce timer and reconnect policy: their code is not part of this model.
- Rendering, focus handling (`onFocus`/`onBlur`), pages, layouts, loading and error views, `ControlButton`, `Preview`, `MessageEntry`, `MessageBox`, `IndexLoader`, `BodyRefContext`, and the next.config files: markup and configuration only.
- Network clients (client/src/app/actions.ts, NewClipRedirect, client/app/page.ts): `clipRedirect`'s answer is an input of `IdentifierInput.Step`.
- The 1500 ms and 500 ms timers of the notification queue: only the updates they apply are modelled.
- HTTP and WebSocket wiring (server/cmd/server/server.go, server/src/main.rs), goroutines, tokio tasks, channels, locks and logging: I/O and concurrency.
- server/src/engine.rs: the per-client and per-clipboard tasks, the `loop {}` and the commented-out block; `connect` is modelled by its registry effect only, with the client's UUID as a parameter.
- server/pkg/clipboard/clipboard.go `Broadcast` and `Run`: channel loops.
- server/pkg/net/net.go: goroutines, channel blocking, context cancellation and the delayed deletion of closed connections and tunnels; the maps are plain maps and routing is one step.
- server/pkg/net/cid.go: a thin wrapper over a UUID library; cids are drawn by the caller.
- Protobuf and JSON encoding (`Out`, `proto.Marshal`/`Unmarshal`, `json.Marshal`/`Unmarshal`), reflection and descriptors: codecs are parameters.
- Random number generation: draws are inputs.
- InputBox.CharInput: lower-casing is ASCII only; JavaScript's `toLowerCase` also maps some non-ASCII characters (KELVIN SIGN to 'k') into the accepted set.
- IdentifierInput.NextStaysBounded: holds for one-character arguments, which is all `InputBox` passes; `next` itself accepts any string.
- MessageQueue.Push: ids are unbounded integers rather than JavaScript numbers, and a second run of the state updater (React development mode) is not modelled.
- PyServer.HandleFile: event data is taken to be well formed; a missing key raises KeyError in the source before the session check.
- PyServer.HandleChunk: chunk data is modelled as bytes, and the index as an integer. A `data` without `index` or `data` raises KeyError in the source before the session check; the model takes both fields as parameters and does not model that raise.
- PyServer.HandleConnect: the clipboard id is a parameter; reading `auth['clip_id']` raises TypeError when `auth` is None and KeyError when the key is missing, and those raises are not modelled.
- PyServer.NewClipRoute: `generate_id` and the insertion take the lock separately; the race between them is concurrency and is not modelled.
- PyClipboard.GenerateId: the loop's non-termination on colliding draws is modelled by a finite draw sequence that returns `None`.
- RustEngine.Generate: same treatment of the retry loop.
- GoNetMsg.Err: requires an error whose `Error()` does not panic; a nil error or `PublicErr(nil)` panics in the source.
- GoNetMsg.Fatal: requires an error whose `Error()` does not panic, as for `Err`.
- GoMsg.Err: requires an error whose `Error()` does not panic, as for GoNetMsg.Err.
- GoProto.Err: requires an error whose `Error()` does not panic, as for GoNetMsg.Err.
- GoNetMsg.OutThenIn: `proto.Marshal` is a total function parameter, so the panic in `Out` on a marshal error is not modelled. The same holds for GoMsg.OutThenIn.
- GoProto.StringField: `encoding/json`'s case-insensitive key matching, duplicate keys and invalid UTF-8 are not modelled.
- Pb.Reset: the reflection state that `Reset` stores is not modelled.

=== FILE: go_clipboard.dfy ===
/**
 * The Go clipboard registry: identifier generation, registration and
 * `Connect`, whose error comes from a recovered panic. A clipboard is stored
 * by value, so `Connect` works on a copy; only map contents are shared with
 * the stored value, because a Go map is a reference.
 */
module GoClipboard {
  import opened Wrappers
  import opened Scalars

  type ClipboardId = string
  /** A channel's identity. */
  type Chan = nat

  datatype Content =
    | ContentText(data: string)
    | ContentFile(ready: bool, chunks: seq<seq<byte>>, nextChunkId: int, numChunks: int,
                  contentType: string, filename: string)

  /** `sends` is `None` for a nil map. */
  datatype Clipboard = Clipboard(content: Content, recv: Chan, sends: Option<set<Chan>>)

  /** `activeClips`. */
  datatype Registry = Registry(active: map<ClipboardId, Clipboard>)

  const Alphabet := "abcdefghijklmnopqrstuvwxyz"

  /** One `rand.N(len(alphabet) + 10)` sample. */
  type Draw = x: int | 0 <= x < 36

  /** The six samples of one call. */
  type Draws = s: seq<Draw> | |s| == 6 witness [0, 0, 0, 0, 0, 0]

  /** One part of the id: a letter of the alphabet, or the decimal digit `x - 26`. */
  function Part(x: Draw): (c: char)
    ensures x < 26 ==> c == Alphabet[x] && 'a' <= c <= 'z'
    ensures 26 <= x ==> c as int == '0' as int + (x - 26) && '0' <= c <= '9'
  {
    if x < |Alphabet| then Alphabet[x] else ('0' as int + (x - |Alphabet|)) as char
  }

  /** `fmt.Sprintf("%v%v-%v%v-%v%v", parts...)`. */
  function GoId(d: Draws): (id: ClipboardId)
    ensures |id| == 8 && id[2] == '-' && id[5] == '-'
    ensures id[0] == Part(d[0]) && id[1] == Part(d[1]) && id[3] == Part(d[2])
    ensures id[4] == Part(d[3]) && id[6] == Part(d[4]) && id[7] == Part(d[5])
  {
    [Part(d[0]), Part(d[1]), '-', Part(d[2]), Part(d[3]), '-', Part(d[4]), Part(d[5])]
  }

  /** `initialize` as written: empty text, a fresh `recv` channel, and a nil `sends` map. */
  function Initialize(r: Registry, id: ClipboardId, recv: Chan): (r': Registry)
    ensures r'.active == r.active[id := Clipboard(ContentText(""), recv, None)]
  {
    Registry(r.active[id := Clipboard(ContentText(""), recv, None)])
  }

  /** `initialize` with the `sends` map made, as `Connect` needs. */
  function InitializeWithSends(r: Registry, id: ClipboardId, recv: Chan): (r': Registry)
    ensures r'.active == r.active[id := Clipboard(ContentText(""), recv, Some({}))]
  {
    Registry(r.active[id := Clipboard(ContentText(""), recv, Some({}))])
  }

  /** `Generate` as written. No collision check: an existing clipboard under the same id is replaced. */
  function Generate(r: Registry, d: Draws, recv: Chan): (res: (Registry, ClipboardId))
    ensures res.1 == GoId(d)
    ensures res.0.active.Keys == r.active.Keys + {res.1}
    ensures res.0.active[res.1] == Clipboard(ContentText(""), recv, None)
    ensures forall id :: id in r.active && id != res.1 ==> res.0.active[id] == r.active[id]
  {
    var id := GoId(d);
    (Initialize(r, id, recv), id)
  }

  /** `Generate` registering a clipboard whose `sends` map exists. */
  function GenerateWithSends(r: Registry, d: Draws, recv: Chan): (res: (Registry, ClipboardId))
    ensures res.1 == GoId(d)
    ensures res.0.active.Keys == r.active.Keys + {res.1}
    ensures res.0.active[res.1] == Clipboard(ContentText(""), recv, Some({}))
    ensures forall id :: id in r.active && id != res.1 ==> res.0.active[id] == r.active[id]
  {
    var id := GoId(d);
    (InitializeWithSends(r, id, recv), id)
  }

  /** `getClip`: a copy of the stored clipboard, or the panic "bad id". */
  function GetClip(r: Registry, id: ClipboardId): (c: Result<Clipboard, string>)
    ensures id !in r.active ==> c == Failure("bad id")
    ensures id in r.active ==> c == Success(r.active[id])
  {
    if id in r.active then Success(r.active[id]) else Failure("bad id")
  }

  /** What `Connect` returns, and the registry after it. */
  datatype ConnectResult = ConnectResult(recv: Option<Chan>, err: Option<string>, reg: Registry)

  /**
   * `Connect`. A string panic ("bad id") becomes the returned error. Writing
   * into a nil `sends` map panics with a runtime error, which is not a string:
   * the deferred recover drops it, so both results stay nil. Otherwise the
   * sender joins the (shared) `sends` map and the clipboard's `recv` is returned.
   */
  function Connect(r: Registry, id: ClipboardId, send: Chan): (res: ConnectResult)
    ensures id !in r.active ==> res == ConnectResult(None, Some("bad id"), r)
    ensures id in r.active && r.active[id].sends.None? ==> res == ConnectResult(None, None, r)
    ensures id in r.active && r.active[id].sends.Some? ==>
              && res.err.None? && res.recv == Some(r.active[id].recv)
              && res.reg.active == r.active[id := r.active[id].(sends := Some(r.active[id].sends.value + {send}))]
  {
    match GetClip(r, id)
    case Failure(panic) => ConnectResult(None, Some(panic), r)
    case Success(clip) =>
      if clip.sends.None? then ConnectResult(None, None, r)
      else
        var clip' := clip.(sends := Some(clip.sends.value + {send}));
        ConnectResult(Some(clip.recv), None, Registry(r.active[id := clip']))
  }

  /** An unknown id is refused with "bad id"; in particular "id", which no 8-character generated id equals. */
  lemma ConnectUnknownFails(r: Registry, d: Draws, recv: Chan, send: Chan)
    requires forall k :: k in r.active ==> |k| == 8
    ensures Connect(r, "id", send).err == Some("bad id")
    ensures Connect(Generate(r, d, recv).0, "id", send).err == Some("bad id")
  {
  }

  /** As written, connecting to a generated clipboard reports no error but hands back no channel and registers nothing. */
  lemma ConnectAfterGenerateLosesChannel(r: Registry, d: Draws, recv: Chan, send: Chan)
    ensures var (r', id) := Generate(r, d, recv);
            Connect(r', id, send) == ConnectResult(None, None, r')
  {
  }

  /** With the `sends` map made, connecting to a generated clipboard returns its channel and registers the sender. */
  lemma ConnectAfterGenerateWithSends(r: Registry, d: Draws, recv: Chan, send: Chan)
    ensures var (r', id) := GenerateWithSends(r, d, recv);
            var res := Connect(r', id, send);
            && res.err.None?
            && res.recv == Some(recv)
            && res.reg.active[id].sends == Some({send})
  {
    var (r', id) := GenerateWithSends(r, d, recv);
    assert r'.active[id].sends == Some({});
    assert {} + {send} == {send};
  }
}

=== FILE: go_errors.dfy ===
/**
 * Go error values as the clipboard package sees them: plain errors and
 * `PublicError`, a wrapper that marks an error as safe to show to clients.
 */
module GoErrors {
  import opened Wrappers

  /** A non-nil error value. `Public(None)` wraps a nil error. */
  datatype GoError = Plain(text: string) | Public(inner: Option<GoError>)

  /** `PublicErr`: wrap any error, nil included. */
  function PublicErr(e: Option<GoError>): (r: GoError)
    ensures IsPublic(Some(r))
    ensures r.inner == e
  {
    Public(e)
  }

  /** `IsPublic`: whether the dynamic type of `e` is `*PublicError`. */
  function IsPublic(e: Option<GoError>): bool
  {
    e.Some? && e.value.Public?
  }

  /** The result of `e.Error()`; `None` when it panics on a nil embedded error. */
  function ErrorText(e: GoError): Option<string>
  {
    match e
    case Plain(text) => Some(text)
    case Public(inner) => if inner.None? then None else ErrorText(inner.value)
  }

  /** Exactly the `PublicErr` wrappers are public: not nil, not a plain error. */
  lemma PublicClassification(text: string, e: Option<GoError>)
    ensures !IsPublic(None)
    ensures !IsPublic(Some(Plain(text)))
    ensures IsPublic(Some(PublicErr(e)))
    ensures forall x: GoError :: IsPublic(Some(x)) <==> exists y :: x == PublicErr(y)
  {
    forall x: GoError
      ensures IsPublic(Some(x)) ==> exists y :: x == PublicErr(y)
    {
      if x.Public? { assert x == PublicErr(x.inner); }
    }
  }

  /** Wrapping keeps the message: a public error reads like the error it wraps, at any depth. */
  lemma {:induction false} PublicErrKeepsText(e: GoError, depth: nat)
    ensures ErrorText(Wrap(e, depth)) == ErrorText(e)
  {
    if depth > 0 {
      PublicErrKeepsText(e, depth - 1);
    }
  }

  /** `e` wrapped by `PublicErr` `depth` times. */
  function Wrap(e: GoError, depth: nat): GoError
  {
    if depth == 0 then e else PublicErr(Some(Wrap(e, depth - 1)))
  }
}

=== FILE: go_msg.dfy ===
/**
 * The earlier Go message envelope, keyed by session id instead of connection
 * id. Protobuf decoding is a parameter.
 */
module GoMsg {
  import opened Wrappers
  import opened Scalars
  import opened Pb
  import opened GoErrors

  /** A session id (a UUID). */
  type Sid = nat

  datatype InMessage = InMessage(message: Option<Message>, sid: Sid)

  /** `In`: decode `b` and tag it with `sid`, or pass the decode error on. */
  function In(sid: Sid, b: seq<byte>, unmarshal: seq<byte> -> Result<Message, string>): (r: Result<InMessage, string>)
    ensures r.Success? <==> unmarshal(b).Success?
    ensures r.Success? ==> r.value.sid == sid && r.value.message == Some(unmarshal(b).value)
    ensures r.Failure? ==> r.error == unmarshal(b).error
  {
    match unmarshal(b)
    case Failure(e) => Failure(e)
    case Success(m) => Success(InMessage(Some(m), sid))
  }

  /** `Out`: the wire bytes of `m`; `proto.Marshal` cannot fail on a well-formed message. */
  function Out(m: Message, marshal: Message -> seq<byte>): seq<byte>
  {
    marshal(m)
  }

  /** `Err`: an error message carrying `e`'s text; only `Desc` is set, so the flag keeps its zero value. */
  function Err(e: GoError): (m: Message)
    requires ErrorText(e).Some?
    ensures GetErr(Some(m)) == Some(Error(ErrorText(e).value, false))
    ensures GetText(Some(m)).None? && GetHdr(Some(m)).None? && GetChunk(Some(m)).None? && GetAck(Some(m)).None?
  {
    ErrorMessage(ErrorText(e).value, false)
  }

  /** With a codec that reads back what it writes, a message sent by `Out` arrives through `In` unchanged, tagged with the session. */
  lemma OutThenIn(sid: Sid, m: Message, marshal: Message -> seq<byte>, unmarshal: seq<byte> -> Result<Message, string>)
    requires unmarshal(marshal(m)) == Success(m)
    ensures In(sid, Out(m, marshal), unmarshal) == Success(InMessage(Some(m), sid))
  {
  }

  /** The receiver of an `Err` message reads back the error's text, unflagged. */
  lemma ErrorReachesPeer(sid: Sid, e: GoError, marshal: Message -> seq<byte>, unmarshal: seq<byte> -> Result<Message, string>)
    requires ErrorText(e).Some?
    requires unmarshal(marshal(Err(e))) == Success(Err(e))
    ensures var got := In(sid, Out(Err(e), marshal), unmarshal);
            && got.Success? && got.value.sid == sid
            && GetDesc(GetErr(got.value.message)) == ErrorText(e).value
            && !GetErr(got.value.message).value.fatal
  {
    OutThenIn(sid, Err(e), marshal, unmarshal);
  }
}

=== FILE: go_net_msg.dfy ===
/**
 * The Go server's protobuf message envelope: an inbound message tagged with
 * the connection it came from, and the error messages sent back. Protobuf
 * decoding is a parameter.
 */
module GoNetMsg {
  import opened Wrappers
  import opened Scalars
  import opened Pb
  import opened GoErrors

  /** A connection id (a UUID). */
  type CID = nat

  /** `InMessage`: the decoded message and the connection it arrived on. */
  datatype InMessage = InMessage(message: Option<Message>, cid: CID)

  /** `proto.Unmarshal`: a message, or the decoder's error text. */
  type Unmarshal = seq<byte> -> Result<Message, string>

  /** `In`: decode `b` and tag it with `cid`, or pass the decode error on. */
  function In(cid: CID, b: seq<byte>, unmarshal: Unmarshal): (r: Result<InMessage, string>)
    ensures r.Success? <==> unmarshal(b).Success?
    ensures r.Success? ==> r.value.cid == cid && r.value.message == Some(unmarshal(b).value)
    ensures r.Failure? ==> r.error == unmarshal(b).error
  {
    match unmarshal(b)
    case Failure(e) => Failure(e)
    case Success(m) => Success(InMessage(Some(m), cid))
  }

  /** `proto.Marshal`, which cannot fail on a well-formed message. */
  type Marshal = Message -> seq<byte>

  /** `Out`: the wire bytes of `m`. */
  function Out(m: Message, marshal: Marshal): seq<byte>
  {
    marshal(m)
  }

  /** An error whose `Error()` does not panic. */
  predicate Printable(e: GoError) {
    ErrorText(e).Some?
  }

  /** `Err`: a recoverable error message carrying `e`'s text. */
  function Err(e: GoError): (m: Message)
    requires Printable(e)
    ensures GetErr(Some(m)) == Some(Error(ErrorText(e).value, false))
    ensures CaseCount(Some(m)) == 1
  {
    ErrorMessage(ErrorText(e).value, false)
  }

  /** `Fatal`: the same message, marked fatal. */
  function Fatal(e: GoError): (m: Message)
    requires Printable(e)
    ensures GetErr(Some(m)) == Some(Error(ErrorText(e).value, true))
    ensures CaseCount(Some(m)) == 1
  {
    ErrorMessage(ErrorText(e).value, true)
  }

  /** `Err` and `Fatal` differ in the fatal flag and nothing else. */
  lemma ErrFatalDifferOnlyInFlag(e: GoError)
    requires Printable(e)
    ensures Err(e) != Fatal(e)
    ensures Fatal(e) == Message(Some(ErrCase(Some(GetErr(Some(Err(e))).value.(fatal := true)))))
  {
  }

  /** With a codec that reads back what it writes, a message sent by `Out` arrives through `In` unchanged, tagged with the receiving connection. */
  lemma OutThenIn(cid: CID, m: Message, marshal: Marshal, unmarshal: Unmarshal)
    requires unmarshal(marshal(m)) == Success(m)
    ensures In(cid, Out(m, marshal), unmarshal) == Success(InMessage(Some(m), cid))
  {
  }

  /** The peer of an `Err` or `Fatal` message reads back the error's text and the flag. */
  lemma ErrorReachesPeer(cid: CID, e: GoError, fatal: bool, marshal: Marshal, unmarshal: Unmarshal)
    requires Printable(e)
    requires var m := if fatal then Fatal(e) else Err(e); unmarshal(marshal(m)) == Success(m)
    ensures var m := if fatal then Fatal(e) else Err(e);
            var got := In(cid, Out(m, marshal), unmarshal);
            && got.Success? && got.value.cid == cid
            && GetDesc(GetErr(got.value.message)) == ErrorText(e).value
            && GetErr(got.value.message).value.fatal == fatal
  {
    var m := if fatal then Fatal(e) else Err(e);
    OutThenIn(cid, m, marshal, unmarshal);
  }
}

=== FILE: go_net_router.dfy ===
/**
 * The Go server's router: connections and tunnels keyed by connection id,
 * direct and broadcast sends, and the routing of inbound messages to a
 * tunnel or to the drain. The maps are plain finite maps and one routing
 * decision is one step; goroutines, channel blocking and the delayed removal
 * of closed connections and tunnels are not modelled.
 */
module GoNetRouter {
  import opened Wrappers
  import opened Scalars
  import opened Pb
  import opened GoNetMsg

  /** A channel's identity. */
  type Chan = nat

  datatype Conn = Conn(out: Chan)

  /** A tunnel's inbound and outbound channels. */
  datatype Tunnel = Tunnel(inbox: Chan, outbox: Chan)

  datatype Router = Router(conns: map<CID, Conn>, tunnels: map<CID, Tunnel>)

  datatype RouteError = InvalidCid | DuplicateTun

  /** A message put on a channel. */
  datatype Delivery = Delivery(chan: Chan, message: Option<Message>)

  /** Where `Start` puts an inbound message. */
  datatype Destination = ToTunnel(chan: Chan) | ToDrain

  function NewRouter(): (r: Router)
    ensures r.conns == map[] && r.tunnels == map[]
  {
    Router(map[], map[])
  }

  /** `Connect`: register output `out` under the freshly drawn id `cid`. */
  function Connect(r: Router, cid: CID, out: Chan): (r': Router)
    ensures r'.conns == r.conns[cid := Conn(out)]
    ensures r'.tunnels == r.tunnels
  {
    r.(conns := r.conns[cid := Conn(out)])
  }

  /** `Send`: put `m` on the output of connection `cid` and nowhere else. */
  function Send(r: Router, cid: CID, m: Option<Message>): (res: Result<Delivery, RouteError>)
    ensures cid !in r.conns ==> res == Failure(InvalidCid)
    ensures cid in r.conns ==> res == Success(Delivery(r.conns[cid].out, m))
  {
    if cid in r.conns then Success(Delivery(r.conns[cid].out, m)) else Failure(InvalidCid)
  }

  /** `Broadcast`: one delivery of `m` per registered connection outside `except`. */
  function Broadcast(r: Router, m: Option<Message>, except: set<CID>): (ds: map<CID, Delivery>)
    ensures forall cid :: cid in ds <==> cid in r.conns && cid !in except
    ensures forall cid :: cid in ds ==> ds[cid] == Delivery(r.conns[cid].out, m)
  {
    map cid | cid in r.conns && cid !in except :: Delivery(r.conns[cid].out, m)
  }

  /** `Tunnel`: refuse a second tunnel first, then an unknown connection; otherwise register the new tunnel. */
  function OpenTunnel(r: Router, cid: CID, inbox: Chan, outbox: Chan): (res: Result<(Router, Tunnel), RouteError>)
    ensures cid in r.tunnels ==> res == Failure(DuplicateTun)
    ensures cid !in r.tunnels && cid !in r.conns ==> res == Failure(InvalidCid)
    ensures cid !in r.tunnels && cid in r.conns ==> res.Success?
    ensures res.Success? ==>
              && cid in r.conns
              && res.value.1 == Tunnel(inbox, outbox)
              && res.value.0.tunnels == r.tunnels[cid := Tunnel(inbox, outbox)]
              && |res.value.0.tunnels| == |r.tunnels| + 1
              && res.value.0.conns == r.conns
  {
    if cid in r.tunnels then Failure(DuplicateTun)
    else if cid !in r.conns then Failure(InvalidCid)
    else
      var t := Tunnel(inbox, outbox);
      Success((r.(tunnels := r.tunnels[cid := t]), t))
  }

  /** One step of `Start`: the message goes to the inbox of its connection's tunnel, or to the drain. */
  function Route(r: Router, m: InMessage): (d: Destination)
    ensures m.cid in r.tunnels ==> d == ToTunnel(r.tunnels[m.cid].inbox)
    ensures m.cid !in r.tunnels ==> d == ToDrain
  {
    if m.cid in r.tunnels then ToTunnel(r.tunnels[m.cid].inbox) else ToDrain
  }

  /** A broadcast reaches a connection exactly when a direct send to it would, with the same delivery. */
  lemma BroadcastAgreesWithSend(r: Router, m: Option<Message>, except: set<CID>, cid: CID)
    ensures cid in Broadcast(r, m, except) <==> Send(r, cid, m).Success? && cid !in except
    ensures cid in Broadcast(r, m, except) ==> Send(r, cid, m) == Success(Broadcast(r, m, except)[cid])
  {
  }

  /** After `Connect`, sends to the new id reach the given output. */
  lemma ConnectThenSend(r: Router, cid: CID, out: Chan, m: Option<Message>)
    ensures Send(Connect(r, cid, out), cid, m) == Success(Delivery(out, m))
  {
  }

  /** Once a tunnel is open, the connection's messages go to it, and a second tunnel is refused. */
  lemma TunnelCapturesRoute(r: Router, cid: CID, inbox: Chan, outbox: Chan, m: InMessage, inbox2: Chan, outbox2: Chan)
    requires OpenTunnel(r, cid, inbox, outbox).Success?
    ensures var r' := OpenTunnel(r, cid, inbox, outbox).value.0;
            && (m.cid == cid ==> Route(r', m) == ToTunnel(inbox))
            && (m.cid != cid ==> Route(r', m) == Route(r, m))
            && OpenTunnel(r', cid, inbox2, outbox2) == Failure(DuplicateTun)
  {
  }

  /** A frame `In` decodes goes to the tunnel of the connection it arrived on, or to the drain when that connection has none. */
  lemma InThenRoute(r: Router, cid: CID, b: seq<byte>, unmarshal: Unmarshal)
    requires unmarshal(b).Success?
    ensures In(cid, b, unmarshal).Success?
    ensures cid in r.tunnels ==> Route(r, In(cid, b, unmarshal).value) == ToTunnel(r.tunnels[cid].inbox)
    ensures cid !in r.tunnels ==> Route(r, In(cid, b, unmarshal).value) == ToDrain
  {
  }
}

=== FILE: go_proto.dfy ===
/**
 * The JSON-over-WebSocket protocol of the earlier Go server: typed JSON
 * messages, their parsers and constructors. The JSON codec is a parameter;
 * what is modelled is how a decoded document binds to the Go structs.
 */
module GoProto {
  import opened Wrappers
  import opened Scalars
  import opened GoErrors

  /** A decoded JSON value, as far as the structs' fields can tell them apart. */
  datatype JsonValue = JString(s: string) | JInt(n: int) | JNull | JOther

  /** A decoded JSON document: an object, `null`, or anything else. */
  datatype Json = JObject(fields: map<string, JsonValue>) | JNullDoc | JNotObject

  /** `json.Marshal` and `json.Unmarshal` (`None` for a syntax error). */
  datatype Codec = Codec(encode: Json -> seq<byte>, decode: seq<byte> -> Option<Json>)

  /** The codec reads back what it wrote for `j`. */
  predicate RoundTrips(c: Codec, j: Json) {
    c.decode(c.encode(j)) == Some(j)
  }

  datatype InMessage = InMessage(binary: bool, sid: nat, data: seq<byte>)
  datatype OutMessage = OutMessage(binary: bool, data: seq<byte>)

  datatype MessageText = MessageText(typ: string, data: string)
  datatype MessageFileHeader = MessageFileHeader(typ: string, filename: string, contentType: string, numChunks: int)

  const MsgText := "MSG_TEXT"
  const MsgHdr := "MSG_HDR"
  const MsgErr := "MSG_ERR"

  /** A string field: absent or null keeps "", a string is taken, anything else is a type error. */
  function StringField(fields: map<string, JsonValue>, key: string): (r: Result<string, string>)
    ensures r.Success? <==> key !in fields || fields[key].JString? || fields[key].JNull?
    ensures key in fields && fields[key].JString? ==> r == Success(fields[key].s)
    ensures key !in fields || fields[key].JNull? ==> r == Success("")
  {
    if key !in fields then Success("")
    else match fields[key]
      case JString(s) => Success(s)
      case JNull => Success("")
      case _ => Failure("json: cannot unmarshal into string field " + key)
  }

  /** An `int` field: absent or null keeps 0, an integer in range is taken, anything else is an error. */
  function IntField(fields: map<string, JsonValue>, key: string): (r: Result<int, string>)
    ensures r.Success? <==> key !in fields || fields[key].JNull? || (fields[key].JInt? && InInt64(fields[key].n))
    ensures r.Success? ==> InInt64(r.value)
    ensures key in fields && fields[key].JInt? && InInt64(fields[key].n) ==> r == Success(fields[key].n)
    ensures key !in fields || fields[key].JNull? ==> r == Success(0)
  {
    if key !in fields then Success(0)
    else match fields[key]
      case JInt(n) => if InInt64(n) then Success(n) else Failure("json: number out of range for int field " + key)
      case JNull => Success(0)
      case _ => Failure("json: cannot unmarshal into int field " + key)
  }

  /** Decoding into a `MessageText`: `null` leaves the zero value, unknown keys are ignored. */
  function BindText(j: Json): Result<MessageText, string>
  {
    match j
    case JNullDoc => Success(MessageText("", ""))
    case JNotObject => Failure("json: cannot unmarshal into MessageText")
    case JObject(f) =>
      var typ :- StringField(f, "type");
      var data :- StringField(f, "data");
      Success(MessageText(typ, data))
  }

  function BindHdr(j: Json): Result<MessageFileHeader, string>
  {
    match j
    case JNullDoc => Success(MessageFileHeader("", "", "", 0))
    case JNotObject => Failure("json: cannot unmarshal into MessageFileHeader")
    case JObject(f) =>
      var typ :- StringField(f, "type");
      var filename :- StringField(f, "filename");
      var contentType :- StringField(f, "content_type");
      var numChunks :- IntField(f, "num_chunks");
      Success(MessageFileHeader(typ, filename, contentType, numChunks))
  }

  /** `parseJSON`: a binary frame is refused before anything is decoded. */
  function ParseJson(msg: InMessage, c: Codec): (r: Result<Json, string>)
    ensures msg.binary ==> r == Failure("got binary message")
    ensures !msg.binary ==> (r.Success? <==> c.decode(msg.data).Some?)
    ensures r.Success? ==> c.decode(msg.data) == Some(r.value)
  {
    if msg.binary then Failure("got binary message")
    else match c.decode(msg.data)
      case None => Failure("json: syntax error")
      case Some(j) => Success(j)
  }

  /** `ParseText`: succeeds exactly on a text frame that decodes and binds to type `MSG_TEXT`. */
  function ParseText(msg: InMessage, c: Codec): (r: Result<MessageText, string>)
    ensures r.Success? <==> !msg.binary && c.decode(msg.data).Some?
                            && BindText(c.decode(msg.data).value).Success?
                            && BindText(c.decode(msg.data).value).value.typ == MsgText
    ensures r.Success? ==> r.value == BindText(c.decode(msg.data).value).value && r.value.typ == MsgText
  {
    var j :- ParseJson(msg, c);
    var out :- BindText(j);
    if out.typ != MsgText then Failure("message wrong type") else Success(out)
  }

  /** `ParseHdr`: succeeds exactly on a text frame that decodes and binds to type `MSG_HDR`. */
  function ParseHdr(msg: InMessage, c: Codec): (r: Result<MessageFileHeader, string>)
    ensures r.Success? <==> !msg.binary && c.decode(msg.data).Some?
                            && BindHdr(c.decode(msg.data).value).Success?
                            && BindHdr(c.decode(msg.data).value).value.typ == MsgHdr
    ensures r.Success? ==> r.value == BindHdr(c.decode(msg.data).value).value && r.value.typ == MsgHdr
  {
    var j :- ParseJson(msg, c);
    var out :- BindHdr(j);
    if out.typ != MsgHdr then Failure("message wrong type") else Success(out)
  }

  /** The JSON object of a `MessageText`. */
  function TextJson(s: string): Json {
    JObject(map["type" := JString(MsgText), "data" := JString(s)])
  }

  /** The JSON object of a `MessageError`. */
  function ErrorJson(desc: string): Json {
    JObject(map["type" := JString(MsgErr), "desc" := JString(desc)])
  }

  /** `serializeJSON`: a text frame holding the encoding. */
  function SerializeJson(c: Codec, j: Json): (m: OutMessage)
    ensures !m.binary && m.data == c.encode(j)
  {
    OutMessage(false, c.encode(j))
  }

  /** `Text`: a text frame carrying `{"type": "MSG_TEXT", "data": s}`. */
  function Text(c: Codec, s: string): (m: OutMessage)
    ensures !m.binary && m.data == c.encode(TextJson(s))
  {
    SerializeJson(c, TextJson(s))
  }

  /** `Err`: a text frame carrying `{"type": "MSG_ERR", "desc": e.Error()}`. */
  function Err(c: Codec, e: GoError): (m: OutMessage)
    requires ErrorText(e).Some?
    ensures !m.binary && m.data == c.encode(ErrorJson(ErrorText(e).value))
  {
    SerializeJson(c, ErrorJson(ErrorText(e).value))
  }

  /** `Errf`: `Err` of the error `fmt.Errorf` builds, whose text is the formatted string. */
  function Errf(c: Codec, format: string, args: seq<string>, sprintf: (string, seq<string>) -> string): (m: OutMessage)
    ensures !m.binary && m.data == c.encode(ErrorJson(sprintf(format, args)))
  {
    Err(c, Plain(sprintf(format, args)))
  }

  /** A text frame built by `Text` parses back as text with the same data, and never as a header. */
  lemma TextRoundTrip(c: Codec, s: string, sid: nat)
    requires RoundTrips(c, TextJson(s))
    ensures ParseText(InMessage(false, sid, Text(c, s).data), c) == Success(MessageText(MsgText, s))
    ensures ParseHdr(InMessage(false, sid, Text(c, s).data), c).Failure?
  {
    var msg := InMessage(false, sid, Text(c, s).data);
    assert c.decode(msg.data) == Some(TextJson(s));
    var f := TextJson(s).fields;
    assert StringField(f, "type") == Success(MsgText);
    assert StringField(f, "data") == Success(s);
    assert BindHdr(TextJson(s)).Success? ==> BindHdr(TextJson(s)).value.typ == MsgText;
  }

  /** An error frame is neither text nor a header to the parsers. */
  lemma ErrorFrameRejected(c: Codec, desc: string, sid: nat)
    requires RoundTrips(c, ErrorJson(desc))
    ensures ParseText(InMessage(false, sid, c.encode(ErrorJson(desc))), c).Failure?
    ensures ParseHdr(InMessage(false, sid, c.encode(ErrorJson(desc))), c).Failure?
  {
    var f := ErrorJson(desc).fields;
    assert StringField(f, "type") == Success(MsgErr);
  }

  /** An `Errf` frame decodes to an error object whose `desc` is the formatted text, and neither parser accepts it. */
  lemma ErrfCarriesFormattedText(c: Codec, format: string, args: seq<string>,
                                 sprintf: (string, seq<string>) -> string, sid: nat)
    requires RoundTrips(c, ErrorJson(sprintf(format, args)))
    ensures var m := Errf(c, format, args, sprintf);
            && c.decode(m.data).Some? && c.decode(m.data).value.JObject?
            && StringField(c.decode(m.data).value.fields, "type") == Success(MsgErr)
            && StringField(c.decode(m.data).value.fields, "desc") == Success(sprintf(format, args))
            && ParseText(InMessage(false, sid, m.data), c).Failure?
            && ParseHdr(InMessage(false, sid, m.data), c).Failure?
  {
    ErrorFrameRejected(c, sprintf(format, args), sid);
  }
}

=== FILE: identifier_input.dfy ===
/**
 * The six-character clipboard-identifier entry of the landing page: a buffer
 * that grows by `Next`, shrinks by `Prev`, and, once full, is formatted as
 * `xx-xx-xx` and looked up.
 */
module IdentifierInput {
  import opened Wrappers

  /** Number of characters in an identifier (the number of input boxes). */
  const Count: nat := 6

  /** Appends `c` while fewer than `Count` characters have been entered. */
  function Next(input: string, c: string): (r: string)
    ensures |input| < Count ==> |r| == |input| + |c| && r[..|input|] == input && r[|input|..] == c
    ensures Count <= |input| ==> r == input
  {
    if |input| < Count then input + c else input
  }

  /** Drops the last character, if there is one. */
  function Prev(input: string): (r: string)
    ensures |input| > 0 ==> r + [input[|input| - 1]] == input
    ensures |input| == 0 ==> r == input
  {
    if |input| > 0 then input[..|input| - 1] else input
  }

  /** The identifier looked up for a full buffer: two characters, a dash, two, a dash, two. */
  function Format(input: string): (id: string)
    requires |input| == Count
    ensures |id| == 8 && id[2] == '-' && id[5] == '-'
    ensures Unformat(id) == input
  {
    var id := input[0..2] + "-" + input[2..4] + "-" + input[4..6];
    assert id[0..2] == input[0..2] && id[3..5] == input[2..4] && id[6..8] == input[4..6];
    assert input == input[0..2] + input[2..4] + input[4..6];
    id
  }

  /** Positional inverse of `Format`: the characters outside the two dash positions. */
  function Unformat(id: string): string
    requires |id| == 8
  {
    id[0..2] + id[3..5] + id[6..8]
  }

  /** `s` with every '-' removed. */
  function RemoveDashes(s: string): string
  {
    if |s| == 0 then ""
    else (if s[0] == '-' then "" else [s[0]]) + RemoveDashes(s[1..])
  }

  lemma {:induction false} RemoveDashesAppend(a: string, b: string)
    ensures RemoveDashes(a + b) == RemoveDashes(a) + RemoveDashes(b)
    decreases |a|
  {
    if |a| == 0 {
      assert a + b == b;
    } else {
      assert (a + b)[1..] == a[1..] + b;
      RemoveDashesAppend(a[1..], b);
    }
  }

  lemma {:induction false} RemoveDashesNoDash(s: string)
    requires forall i :: 0 <= i < |s| ==> s[i] != '-'
    ensures RemoveDashes(s) == s
    decreases |s|
  {
    if |s| > 0 {
      RemoveDashesNoDash(s[1..]);
    }
  }

  /** Deleting the two dashes of a formatted identifier gives back the typed characters. */
  lemma FormatRemoveDashes(input: string)
    requires |input| == Count
    requires forall i :: 0 <= i < |input| ==> input[i] != '-'
    ensures RemoveDashes(Format(input)) == input
  {
    var a, b, c := input[0..2], input[2..4], input[4..6];
    assert Format(input) == a + ("-" + (b + ("-" + c)));
    RemoveDashesAppend(a, "-" + (b + ("-" + c)));
    RemoveDashesAppend("-", b + ("-" + c));
    RemoveDashesAppend(b, "-" + c);
    RemoveDashesAppend("-", c);
    RemoveDashesNoDash(a);
    RemoveDashesNoDash(b);
    RemoveDashesNoDash(c);
    assert input == a + b + c;
  }

  /** Undoing a successful `Next` with `Prev` restores the buffer. */
  lemma PrevAfterNext(input: string, c: string)
    requires |input| < Count && |c| == 1
    ensures Prev(Next(input, c)) == input
  {
  }

  /** With single characters, the buffer never holds more than `Count` characters. */
  lemma NextStaysBounded(input: string, c: string)
    requires |input| <= Count && |c| == 1
    ensures |Next(input, c)| <= Count
    ensures |input| == Count ==> Next(input, c) == input
  {
  }

  /** The component's state: the typed characters and whether the last lookup failed. */
  datatype State = State(input: string, notFound: bool)

  /** What drives the component: a character, a backspace, or the answer of a lookup. */
  datatype Event = Typed(c: string) | Backspace | LookupReturned(truthy: bool)

  /** A transition: the next state and the identifier whose lookup it starts, if any. */
  datatype Transition = Transition(state: State, lookup: Option<string>)

  /**
   * The effect that runs whenever `input` changes: clear `notFound`, and when
   * exactly `Count` characters are present start a lookup of the formatted id.
   */
  function OnInputChange(input: string): (r: Transition)
    ensures r.state.input == input && !r.state.notFound
    ensures r.lookup.Some? <==> |input| == Count
    ensures r.lookup.Some? ==> |r.lookup.value| == 8 && Unformat(r.lookup.value) == input
    ensures r.lookup.Some? ==> r.lookup.value == Format(input)
  {
    if |input| != Count then Transition(State(input, false), None)
    else Transition(State(input, false), Some(Format(input)))
  }

  /**
   * One step. A buffer update that changes the buffer re-runs the effect; one
   * that leaves it equal does not (React skips an effect whose dependency is
   * unchanged). A truthy lookup answer sets `notFound`; a falsy one is the
   * "Impossible" exception thrown inside the transition.
   */
  function Step(s: State, e: Event): (r: Result<Transition, string>)
    ensures !e.LookupReturned? ==> r.Success?
    ensures !e.LookupReturned? && r.value.state.input == s.input ==> r.value == Transition(s, None)
    ensures e.LookupReturned? ==> (r.Success? <==> e.truthy)
    ensures e.Typed? ==> r.value.state.input == Next(s.input, e.c)
    ensures e.Backspace? ==> r.value.state.input == Prev(s.input)
    ensures e.LookupReturned? && r.Success? ==> r.value.state.input == s.input && r.value.lookup.None?
    ensures r.Success? && r.value.state.input != s.input ==> (r.value.lookup.Some? <==> |r.value.state.input| == Count)
    ensures r.Success? && r.value.state.notFound ==>
              (e.LookupReturned? && e.truthy) || (s.notFound && r.value.state.input == s.input)
    ensures r.Success? && r.value.state.input != s.input ==> !r.value.state.notFound
    ensures r.Success? && r.value.lookup.Some? ==>
              |r.value.state.input| == Count && r.value.lookup.value == Format(r.value.state.input)
  {
    match e
    case Typed(c) =>
      var input' := Next(s.input, c);
      if input' == s.input then Success(Transition(s, None)) else Success(OnInputChange(input'))
    case Backspace =>
      var input' := Prev(s.input);
      if input' == s.input then Success(Transition(s, None)) else Success(OnInputChange(input'))
    case LookupReturned(truthy) =>
      if truthy then Success(Transition(State(s.input, true), None)) else Failure("Impossible")
  }

  /**
   * Typing one character into a non-full buffer and then pressing Backspace
   * restores the typed text and leaves `notFound` cleared; the keystroke that
   * fills the buffer is the one that starts a lookup, and Backspace never does.
   */
  lemma TypedThenBackspace(s: State, c: string)
    requires |s.input| < Count && |c| == 1
    ensures var t := Step(s, Typed(c)).value;
            var u := Step(t.state, Backspace).value;
            && (t.lookup.Some? <==> |s.input| == Count - 1)
            && u.state == State(s.input, false)
            && u.lookup.None?
  {
    PrevAfterNext(s.input, c);
  }
}

=== FILE: input_box.dfy ===
/**
 * One character box of the identifier entry: which box holds the focus, what
 * it displays, and which keystrokes reach the buffer.
 */
module InputBox {
  import opened IdentifierInput

  /** Box `index` is active when the cursor is on it, or when the buffer is full and it is the last box. */
  predicate IsActive(index: int, count: int, cursor: int) {
    index == cursor || (index == count - 1 && cursor == count)
  }

  /** The box the focus belongs to, for a cursor in `0..count`. */
  function ActiveBox(count: int, cursor: int): int {
    if cursor < count then cursor else count - 1
  }

  /** Before the buffer is full, the active box is the one under the cursor. */
  lemma ActiveIsCursor(index: int, count: int, cursor: int)
    requires 0 <= cursor < count && 0 <= index < count
    ensures IsActive(index, count, cursor) <==> index == cursor
  {
  }

  /** A full buffer keeps the focus on the last box. */
  lemma ActiveWhenFull(index: int, count: int)
    requires 1 <= count && 0 <= index < count
    ensures IsActive(index, count, count) <==> index == count - 1
  {
  }

  /** For any cursor in `0..count`, exactly one of the `count` boxes is active. */
  lemma ExactlyOneActive(count: int, cursor: int)
    requires 1 <= count && 0 <= cursor <= count
    ensures (set i | 0 <= i < count && IsActive(i, count, cursor)) == {ActiveBox(count, cursor)}
  {
    var active := set i | 0 <= i < count && IsActive(i, count, cursor);
    assert ActiveBox(count, cursor) in active;
    forall i | i in active
      ensures i == ActiveBox(count, cursor)
    {
    }
  }

  predicate IsIdChar(c: char) {
    'a' <= c <= 'z' || '0' <= c <= '9'
  }

  /** ASCII lower-casing of one character. */
  function LowerChar(c: char): (l: char)
    ensures 'A' <= c <= 'Z' ==> l as int == c as int + 32
    ensures !('A' <= c <= 'Z') ==> l == c
  {
    if 'A' <= c <= 'Z' then (c as int + 32) as char else c
  }

  function Lower(s: string): (r: string)
    ensures |r| == |s|
    ensures forall i :: 0 <= i < |s| ==> r[i] == LowerChar(s[i])
  {
    seq(|s|, i requires 0 <= i < |s| => LowerChar(s[i]))
  }

  /** The test `^[a-z0-9]$`: exactly one identifier character. */
  predicate MatchesIdChar(s: string) {
    |s| == 1 && IsIdChar(s[0])
  }

  /** A change of a box's value: lower-case it, and pass it to `Next` only if it is one identifier character. */
  function CharInput(input: string, value: string): (r: string)
    ensures r != input ==> MatchesIdChar(Lower(value)) && |input| < Count && r == input + Lower(value)
    ensures MatchesIdChar(Lower(value)) && |input| < Count ==> r == input + Lower(value)
    ensures !MatchesIdChar(Lower(value)) ==> r == input
  {
    var lowered := Lower(value);
    if MatchesIdChar(lowered) then Next(input, lowered) else input
  }

  /** A key press: Backspace runs `Prev`, every other key is ignored here. */
  function KeyDown(input: string, key: string): (r: string)
    ensures key == "Backspace" && |input| > 0 ==> r + [input[|input| - 1]] == input
    ensures key == "Backspace" && |input| == 0 ==> r == input
    ensures key != "Backspace" ==> r == input
  {
    if key == "Backspace" then Prev(input) else input
  }

  /** What box `index` shows: the typed character at that position, or nothing. */
  function Display(input: string, index: int): (v: string)
    ensures 0 <= index < |input| ==> v == [input[index]]
    ensures !(0 <= index < |input|) ==> v == ""
  {
    if 0 <= index < |input| then [input[index]] else ""
  }

  /** The values shown by boxes `0..n`, read left to right. */
  function Shown(input: string, n: nat): string
  {
    if n == 0 then "" else Shown(input, n - 1) + Display(input, n - 1)
  }

  /** Read left to right, the boxes show exactly the typed buffer. */
  lemma {:induction false} ShownIsInput(input: string, n: nat)
    requires |input| <= n
    ensures Shown(input, n) == input
  {
    if n == |input| {
      ShownPrefix(input, n);
      assert input[..n] == input;
    } else {
      ShownIsInput(input, n - 1);
    }
  }

  lemma {:induction false} ShownPrefix(input: string, n: nat)
    requires n <= |input|
    ensures Shown(input, n) == input[..n]
  {
    if n > 0 {
      ShownPrefix(input, n - 1);
      assert input[..n] == input[..n - 1] + [input[n - 1]];
    }
  }

  /** A buffer the boxes can hold: at most `Count` identifier characters. */
  predicate WellFormed(input: string) {
    |input| <= Count && forall i :: 0 <= i < |input| ==> IsIdChar(input[i])
  }

  /** Typing and Backspace keep the buffer well formed, whatever the user types. */
  lemma InputPreservesWellFormed(input: string, value: string, key: string)
    requires WellFormed(input)
    ensures WellFormed(CharInput(input, value))
    ensures WellFormed(KeyDown(input, key))
  {
    var r := CharInput(input, value);
    if r != input {
      assert r == input + Lower(value);
      forall i | 0 <= i < |r|
        ensures IsIdChar(r[i])
      {
        if i < |input| { assert r[i] == input[i]; } else { assert r[i] == Lower(value)[0]; }
      }
    }
  }
}

=== FILE: message_queue.dfy ===
/**
 * The notification queue: `pushMessage` puts a new entry at the head and ages
 * the others; a timer first marks the head as leaving, then removes it.
 * Only the list updates are modelled; the timers that apply them are not.
 */
module MessageQueue {
  import opened Wrappers

  /** One notification: its id, its message and its animation step (-1 once leaving). */
  datatype Entry<M> = Entry(id: int, message: M, animation: int)

  /** The entry list together with the next id to hand out. */
  datatype Queue<M> = Queue(entries: seq<Entry<M>>, nextId: int)

  /** The initial queue: no entries, ids start at 0. */
  function Empty<M>(): (q: Queue<M>)
    ensures Valid(q)
  {
    Queue([], 0)
  }

  /** Ids strictly decrease from head to tail and are all below the next id to hand out. */
  ghost predicate Valid<M>(q: Queue<M>) {
    && (forall i, j :: 0 <= i < j < |q.entries| ==> q.entries[i].id > q.entries[j].id)
    && (forall i :: 0 <= i < |q.entries| ==> q.entries[i].id < q.nextId)
  }

  /** Every entry one animation step older, everything else kept. */
  function Age<M>(es: seq<Entry<M>>): (r: seq<Entry<M>>)
    ensures |r| == |es|
    ensures forall i :: 0 <= i < |es| ==>
              r[i] == Entry(es[i].id, es[i].message, es[i].animation + 1)
  {
    seq(|es|, i requires 0 <= i < |es| => es[i].(animation := es[i].animation + 1))
  }

  /** `pushMessage`: a fresh head carrying `m` at animation 0, the old entries aged behind it. */
  function Push<M>(q: Queue<M>, m: M): (r: Queue<M>)
    ensures |r.entries| == |q.entries| + 1
    ensures r.entries[0] == Entry(q.nextId, m, 0)
    ensures r.nextId == q.nextId + 1
    ensures forall i :: 0 <= i < |q.entries| ==>
              && r.entries[i + 1].id == q.entries[i].id
              && r.entries[i + 1].message == q.entries[i].message
              && r.entries[i + 1].animation == q.entries[i].animation + 1
  {
    var aged := Age(q.entries);
    var es := [Entry(q.nextId, m, 0)] + aged;
    assert forall i :: 0 <= i < |q.entries| ==> es[i + 1] == aged[i];
    Queue(es, q.nextId + 1)
  }

  /** The first timer's update: the entry with id `id` gets animation -1, all others are kept. */
  function MarkLeaving<M>(es: seq<Entry<M>>, id: int): (r: seq<Entry<M>>)
    ensures |r| == |es|
    ensures forall i :: 0 <= i < |es| ==>
              if es[i].id == id then r[i] == es[i].(animation := -1) else r[i] == es[i]
  {
    seq(|es|, i requires 0 <= i < |es| => if es[i].id == id then es[i].(animation := -1) else es[i])
  }

  /** The second timer's update: keep every entry whose id differs from `id`. */
  function Remove<M>(es: seq<Entry<M>>, id: int): (r: seq<Entry<M>>)
    ensures |r| <= |es|
    ensures forall i :: 0 <= i < |r| ==> r[i].id != id && r[i] in es
  {
    if |es| == 0 then []
    else if es[0].id == id then Remove(es[1..], id)
    else [es[0]] + Remove(es[1..], id)
  }

  /** The effect over `entries.length`: schedule the head's removal, or nothing on an empty list. */
  function Scheduled<M>(q: Queue<M>): (target: Option<int>)
    ensures target.None? <==> |q.entries| == 0
    ensures target.Some? ==> target.value == q.entries[0].id
  {
    if |q.entries| == 0 then None else Some(q.entries[0].id)
  }

  /** `Remove` deletes exactly the entries with that id and keeps the others in order. */
  lemma {:induction false} RemoveSpec<M>(es: seq<Entry<M>>, id: int)
    ensures forall e :: e in Remove(es, id) <==> e in es && e.id != id
    ensures |Remove(es, id)| <= |es|
    ensures (forall e :: e in es ==> e.id != id) ==> Remove(es, id) == es
  {
    if |es| > 0 {
      RemoveSpec(es[1..], id);
      assert es == [es[0]] + es[1..];
    }
  }

  /** On an id-ordered list, removing one id removes exactly that entry and nothing else moves. */
  lemma {:induction false} RemoveUnique<M>(es: seq<Entry<M>>, k: nat)
    requires k < |es|
    requires forall i, j :: 0 <= i < j < |es| ==> es[i].id > es[j].id
    ensures Remove(es, es[k].id) == es[..k] + es[k + 1..]
  {
    if k == 0 {
      RemoveSpec(es[1..], es[0].id);
      assert es[..0] + es[1..] == es[1..];
    } else {
      RemoveUnique(es[1..], k - 1);
      assert es[1..][k - 1].id == es[k].id;
      assert es[..k] + es[k + 1..] == [es[0]] + (es[1..][..k - 1] + es[1..][k..]);
    }
  }

  /** Sub-sequences of a descending list stay descending. */
  lemma {:induction false} RemoveKeepsOrder<M>(es: seq<Entry<M>>, id: int, bound: int)
    requires forall i, j :: 0 <= i < j < |es| ==> es[i].id > es[j].id
    requires forall i :: 0 <= i < |es| ==> es[i].id < bound
    ensures forall i, j :: 0 <= i < j < |Remove(es, id)| ==> Remove(es, id)[i].id > Remove(es, id)[j].id
    ensures forall i :: 0 <= i < |Remove(es, id)| ==> Remove(es, id)[i].id < bound
  {
    if |es| > 0 {
      var tail := es[1..];
      assert forall i :: 0 <= i < |tail| ==> tail[i].id < es[0].id by {
        forall i | 0 <= i < |tail| ensures tail[i].id < es[0].id {
          assert tail[i] == es[i + 1];
        }
      }
      RemoveKeepsOrder(tail, id, es[0].id);
      var rest := Remove(tail, id);
      if es[0].id != id {
        var r := [es[0]] + rest;
        assert Remove(es, id) == r;
        forall i, j | 0 <= i < j < |r|
          ensures r[i].id > r[j].id
        {
          assert r[j] == rest[j - 1];
          if i > 0 { assert r[i] == rest[i - 1]; }
        }
      }
    }
  }

  /** Pushing keeps the ids unique and descending. */
  lemma PushPreservesValid<M>(q: Queue<M>, m: M)
    requires Valid(q)
    ensures Valid(Push(q, m))
  {
    var r := Push(q, m);
    forall i, j | 0 <= i < j < |r.entries|
      ensures r.entries[i].id > r.entries[j].id
    {
      assert r.entries[j].id == q.entries[j - 1].id;
      if i == 0 {
        assert q.entries[j - 1].id < q.nextId;
      } else {
        assert r.entries[i].id == q.entries[i - 1].id;
      }
    }
  }

  /** Marking an entry as leaving keeps the ids unique and descending. */
  lemma MarkPreservesValid<M>(q: Queue<M>, id: int)
    requires Valid(q)
    ensures Valid(q.(entries := MarkLeaving(q.entries, id)))
  {
  }

  /** Removing an entry keeps the ids unique and descending. */
  lemma RemovePreservesValid<M>(q: Queue<M>, id: int)
    requires Valid(q)
    ensures Valid(q.(entries := Remove(q.entries, id)))
  {
    RemoveKeepsOrder(q.entries, id, q.nextId);
  }

  /** The scheduled pair of updates retires the head and leaves the tail exactly as it was. */
  lemma RetireHead<M>(q: Queue<M>)
    requires Valid(q) && |q.entries| > 0
    ensures Remove(MarkLeaving(q.entries, Scheduled(q).value), Scheduled(q).value) == q.entries[1..]
  {
    var id := q.entries[0].id;
    var marked := MarkLeaving(q.entries, id);
    RemoveUnique(marked, 0);
    assert marked[1..] == q.entries[1..];
  }
}

=== FILE: pb.dfy ===
/**
 * The protobuf `Message` of the wire protocol: a oneof over Text, FileHeader,
 * Chunk, Ack and Error, whose cases hold pointers that may be nil, with the
 * generated nil-safe getters. A nil pointer is `None`.
 */
module Pb {
  import opened Wrappers
  import opened Scalars

  datatype Text = Text(data: string)
  datatype FileHeader = FileHeader(filename: string, contentType: string, numChunks: int32)
  /** `data` is `None` for a nil byte slice. */
  datatype Chunk = Chunk(index: int32, data: Option<seq<byte>>)
  datatype Ack = Ack
  /**
   * The generated Go struct carries only `desc`; the Go server also sets a
   * `fatal` flag, so the model gives the message one.
   */
  datatype Error = Error(desc: string, fatal: bool)

  /** The set case of the oneof; each wrapper holds a possibly-nil pointer to its payload. */
  datatype Case =
    | TextCase(text: Option<Text>)
    | HdrCase(hdr: Option<FileHeader>)
    | ChunkCase(chunk: Option<Chunk>)
    | AckCase(ack: Option<Ack>)
    | ErrCase(err: Option<Error>)

  /** `msg` is `None` when no case is set. */
  datatype Message = Message(msg: Option<Case>)

  /** The message whose only case is an error with the given description and severity. */
  function ErrorMessage(desc: string, fatal: bool): Message {
    Message(Some(ErrCase(Some(Error(desc, fatal)))))
  }

  /** `Reset`: the zero message, with no case set. */
  function Reset(m: Message): (r: Message)
    ensures GetMsg(Some(r)).None?
    ensures CaseCount(Some(r)) == 0
  {
    Message(None)
  }

  function GetMsg(x: Option<Message>): (r: Option<Case>)
    ensures x.None? ==> r.None?
    ensures x.Some? ==> r == x.value.msg
  {
    if x.Some? then x.value.msg else None
  }

  function GetText(x: Option<Message>): (r: Option<Text>)
    ensures r.Some? <==> x.Some? && x.value.msg.Some? && x.value.msg.value.TextCase? && x.value.msg.value.text.Some?
    ensures r.Some? ==> x.value.msg.value.text == r
  {
    if x.Some? && x.value.msg.Some? && x.value.msg.value.TextCase? then x.value.msg.value.text else None
  }

  function GetHdr(x: Option<Message>): (r: Option<FileHeader>)
    ensures r.Some? <==> x.Some? && x.value.msg.Some? && x.value.msg.value.HdrCase? && x.value.msg.value.hdr.Some?
    ensures r.Some? ==> x.value.msg.value.hdr == r
  {
    if x.Some? && x.value.msg.Some? && x.value.msg.value.HdrCase? then x.value.msg.value.hdr else None
  }

  function GetChunk(x: Option<Message>): (r: Option<Chunk>)
    ensures r.Some? <==> x.Some? && x.value.msg.Some? && x.value.msg.value.ChunkCase? && x.value.msg.value.chunk.Some?
    ensures r.Some? ==> x.value.msg.value.chunk == r
  {
    if x.Some? && x.value.msg.Some? && x.value.msg.value.ChunkCase? then x.value.msg.value.chunk else None
  }

  function GetAck(x: Option<Message>): (r: Option<Ack>)
    ensures r.Some? <==> x.Some? && x.value.msg.Some? && x.value.msg.value.AckCase? && x.value.msg.value.ack.Some?
  {
    if x.Some? && x.value.msg.Some? && x.value.msg.value.AckCase? then x.value.msg.value.ack else None
  }

  function GetErr(x: Option<Message>): (r: Option<Error>)
    ensures r.Some? <==> x.Some? && x.value.msg.Some? && x.value.msg.value.ErrCase? && x.value.msg.value.err.Some?
    ensures r.Some? ==> x.value.msg.value.err == r
  {
    if x.Some? && x.value.msg.Some? && x.value.msg.value.ErrCase? then x.value.msg.value.err else None
  }

  /** How many of the five case getters return a non-nil payload. */
  function CaseCount(x: Option<Message>): nat {
    (if GetText(x).Some? then 1 else 0) + (if GetHdr(x).Some? then 1 else 0)
    + (if GetChunk(x).Some? then 1 else 0) + (if GetAck(x).Some? then 1 else 0)
    + (if GetErr(x).Some? then 1 else 0)
  }

  /** The case of a message whose payload pointer is non-nil. */
  predicate HasPayload(x: Option<Message>) {
    x.Some? && x.value.msg.Some? &&
    match x.value.msg.value
    case TextCase(p) => p.Some?
    case HdrCase(p) => p.Some?
    case ChunkCase(p) => p.Some?
    case AckCase(p) => p.Some?
    case ErrCase(p) => p.Some?
  }

  /** At most one getter is non-nil, and exactly one when the set case carries a payload. */
  lemma OneofGetters(x: Option<Message>)
    ensures CaseCount(x) <= 1
    ensures CaseCount(x) == 1 <==> HasPayload(x)
  {
  }

  // ----- scalar getters on possibly-nil payloads -----

  function GetTextData(x: Option<Text>): (s: string)
    ensures x.None? ==> s == ""
    ensures x.Some? ==> s == x.value.data
  {
    if x.Some? then x.value.data else ""
  }

  function GetFilename(x: Option<FileHeader>): (s: string)
    ensures x.None? ==> s == ""
    ensures x.Some? ==> s == x.value.filename
  {
    if x.Some? then x.value.filename else ""
  }

  function GetContentType(x: Option<FileHeader>): (s: string)
    ensures x.None? ==> s == ""
    ensures x.Some? ==> s == x.value.contentType
  {
    if x.Some? then x.value.contentType else ""
  }

  function GetNumChunks(x: Option<FileHeader>): (n: int32)
    ensures x.None? ==> n == 0
    ensures x.Some? ==> n == x.value.numChunks
  {
    if x.Some? then x.value.numChunks else 0
  }

  function GetIndex(x: Option<Chunk>): (n: int32)
    ensures x.None? ==> n == 0
    ensures x.Some? ==> n == x.value.index
  {
    if x.Some? then x.value.index else 0
  }

  function GetChunkData(x: Option<Chunk>): (d: Option<seq<byte>>)
    ensures x.None? ==> d.None?
    ensures x.Some? ==> d == x.value.data
  {
    if x.Some? then x.value.data else None
  }

  function GetDesc(x: Option<Error>): (s: string)
    ensures x.None? ==> s == ""
    ensures x.Some? ==> s == x.value.desc
  {
    if x.Some? then x.value.desc else ""
  }

  /** Reading through a nil message yields every default: nil payloads, empty strings, zero numbers. */
  lemma NilMessageDefaults()
    ensures GetMsg(None).None?
    ensures GetTextData(GetText(None)) == "" && GetDesc(GetErr(None)) == ""
    ensures GetFilename(GetHdr(None)) == "" && GetContentType(GetHdr(None)) == "" && GetNumChunks(GetHdr(None)) == 0
    ensures GetIndex(GetChunk(None)) == 0 && GetChunkData(GetChunk(None)).None?
    ensures GetAck(None).None?
  {
  }

  /** After `Reset` every case getter is nil. */
  lemma ResetClearsCases(m: Message)
    ensures var r := Some(Reset(m));
            GetText(r).None? && GetHdr(r).None? && GetChunk(r).None? && GetAck(r).None? && GetErr(r).None?
  {
  }

  /** An error message's only non-nil getter is `GetErr`, and it returns the description and flag. */
  lemma ErrorMessageGetters(desc: string, fatal: bool)
    ensures var x := Some(ErrorMessage(desc, fatal));
            && GetErr(x) == Some(Error(desc, fatal))
            && GetDesc(GetErr(x)) == desc
            && GetText(x).None? && GetHdr(x).None? && GetChunk(x).None? && GetAck(x).None?
            && CaseCount(x) == 1
  {
  }
}

=== FILE: py_clipboard.dfy ===
/**
 * The Python server's clipboard registry: clipboards with their contents and
 * client sets, the reverse map from client to clipboard, identifier
 * generation and the periodic sweep of empty clipboards.
 */
module PyClipboard {
  import opened Wrappers
  import opened Scalars

  type ClipId = string
  type Sid = string

  /**
   * An upload in progress. The server imports `FileBuffer` from its clipboard
   * module, which does not define it; the fields are the ones the handlers
   * read and write, and a fresh buffer starts with no data and chunk 0 expected.
   */
  datatype FileBuffer = FileBuffer(numChunks: int, contentType: string, filename: string,
                                   data: seq<byte>, nextChunk: int)

  /** `buffer` is `None` while the attribute has never been assigned (the constructor does not set it). */
  datatype Clip = Clip(contents: string, clients: set<Sid>, buffer: Option<FileBuffer>)

  /** The class attributes `clips` and `all_clients`. */
  datatype Registry = Registry(clips: map<ClipId, Clip>, allClients: map<Sid, ClipId>)

  /** `Clipboard()`: empty text and no clients. */
  function NewClip(): (c: Clip)
    ensures c.contents == "" && c.clients == {} && c.buffer.None?
  {
    Clip("", {}, None)
  }

  /** Every registered client points at an existing clipboard that lists it. */
  ghost predicate Inv(r: Registry) {
    forall sid :: sid in r.allClients ==>
      r.allClients[sid] in r.clips && sid in r.clips[r.allClients[sid]].clients
  }

  /** Conversely, every client a clipboard lists is registered to that clipboard. */
  ghost predicate ClientsRegistered(r: Registry) {
    forall id, sid :: id in r.clips && sid in r.clips[id].clients ==>
      sid in r.allClients && r.allClients[sid] == id
  }

  // ----- identifier generation -----

  type Letter = c: char | 'a' <= c <= 'z' witness 'a'

  /** One round of `generate_id`'s loop: three letters, three letters and `randint(0, 999)`. */
  datatype Draw = Draw(first: seq<Letter>, second: seq<Letter>, number: int)

  predicate ValidDraw(d: Draw) {
    |d.first| == 3 && |d.second| == 3 && 0 <= d.number <= 999
  }

  function DigitChar(d: int): (c: char)
    requires 0 <= d < 10
    ensures '0' <= c <= '9'
  {
    ('0' as int + d) as char
  }

  /** Python's `str(n)` for a non-negative integer. */
  function Decimal(n: nat): (s: string)
    ensures 1 <= |s|
    ensures forall i :: 0 <= i < |s| ==> '0' <= s[i] <= '9'
    ensures |s| > 1 ==> s[0] != '0'
    ensures n < 10 ==> |s| == 1
    ensures n < 1000 ==> |s| <= 3
  {
    if n < 10 then [DigitChar(n)] else Decimal(n / 10) + [DigitChar(n % 10)]
  }

  /** Reads a string of decimal digits back as a number. */
  function ParseDecimal(s: string): int
  {
    if |s| == 0 then 0 else 10 * ParseDecimal(s[..|s| - 1]) + (s[|s| - 1] as int - '0' as int)
  }

  /** `str` is injective on the numbers it renders: parsing the text gives the number back. */
  lemma {:induction false} DecimalRoundTrip(n: nat)
    ensures ParseDecimal(Decimal(n)) == n
  {
    if n >= 10 {
      DecimalRoundTrip(n / 10);
      var s := Decimal(n);
      assert s[..|s| - 1] == Decimal(n / 10);
    }
  }

  /** The f-string `f'{id_1}-{id_2}-{id_3}'`. */
  function FormatId(d: Draw): string
  {
    d.first + "-" + d.second + "-" + Decimal(if d.number < 0 then 0 else d.number)
  }

  /** The shape of a generated id: `abc-def-` followed by the canonical decimal form of 0..999. */
  predicate IsPyId(s: string) {
    && 9 <= |s| <= 11
    && (forall i :: 0 <= i < 3 ==> 'a' <= s[i] <= 'z')
    && s[3] == '-'
    && (forall i :: 4 <= i < 7 ==> 'a' <= s[i] <= 'z')
    && s[7] == '-'
    && (forall i :: 8 <= i < |s| ==> '0' <= s[i] <= '9')
    && (|s| > 9 ==> s[8] != '0')
  }

  lemma FormatIdShape(d: Draw)
    requires ValidDraw(d)
    ensures IsPyId(FormatId(d))
    ensures ParseDecimal(FormatId(d)[8..]) == d.number
  {
    var s := FormatId(d);
    var dec := Decimal(d.number);
    var head := d.first + "-" + d.second + "-";
    assert |head| == 8;
    assert s == head + dec;
    assert forall i :: 0 <= i < 3 ==> s[i] == head[i] == d.first[i];
    assert s[3] == head[3] == '-';
    assert forall i :: 4 <= i < 7 ==> s[i] == head[i] == d.second[i - 4];
    assert s[7] == head[7] == '-';
    assert s[8..] == dec;
    assert forall i :: 8 <= i < |s| ==> s[i] == dec[i - 8];
    DecimalRoundTrip(d.number);
  }

  /**
   * `generate_id`: the first drawn id that is not already a clipboard, or
   * `None` when every draw collides (the loop would go on drawing).
   */
  function GenerateId(r: Registry, draws: seq<Draw>): (id: Option<ClipId>)
    requires forall i :: 0 <= i < |draws| ==> ValidDraw(draws[i])
    ensures id.Some? ==> id.value !in r.clips && IsPyId(id.value)
    ensures id.Some? ==> exists k :: 0 <= k < |draws| && id.value == FormatId(draws[k])
                          && forall j :: 0 <= j < k ==> FormatId(draws[j]) in r.clips
    ensures id.None? <==> forall j :: 0 <= j < |draws| ==> FormatId(draws[j]) in r.clips
  {
    if |draws| == 0 then None
    else
      var candidate := FormatId(draws[0]);
      if candidate !in r.clips then
        FormatIdShape(draws[0]);
        Some(candidate)
      else
        var rest := GenerateId(r, draws[1..]);
        assert forall j :: 1 <= j < |draws| ==> draws[j] == draws[1..][j - 1];
        if rest.Some? then
          var k :| 0 <= k < |draws[1..]| && rest.value == FormatId(draws[1..][k])
                   && forall j :: 0 <= j < k ==> FormatId(draws[1..][j]) in r.clips;
          assert rest.value == FormatId(draws[k + 1]);
          rest
        else
          rest
  }

  // ----- cleanup -----

  /** One pass of `cleanup`: drop every clipboard whose client set is empty. */
  function Sweep(clips: map<ClipId, Clip>): (r: map<ClipId, Clip>)
    ensures forall id :: id in r <==> id in clips && clips[id].clients != {}
    ensures forall id :: id in r ==> r[id] == clips[id]
  {
    map id | id in clips && clips[id].clients != {} :: clips[id]
  }

  /** The sweep never removes a clipboard a registered client points at. */
  lemma SweepPreservesInv(r: Registry)
    requires Inv(r)
    ensures Inv(r.(clips := Sweep(r.clips)))
    ensures ClientsRegistered(r) ==> ClientsRegistered(r.(clips := Sweep(r.clips)))
  {
  }
}

=== FILE: py_server.dfy ===
/**
 * The Python server's Socket.IO handlers as a state machine over the
 * clipboard registry. Each handler takes the registry and the event's data and
 * returns the new registry, the events it emits and its acknowledgement value,
 * or the exception it raises (which leaves the registry as it was).
 */
module PyServer {
  import opened Wrappers
  import opened Scalars
  import opened PyClipboard

  datatype Payload = NoPayload | TextPayload(text: string)

  /** Where an emit goes: a set of sessions, or every connected session. */
  datatype Target = To(sids: set<Sid>) | Everyone

  datatype Emit = Emit(event: string, payload: Payload, target: Target)

  datatype Outcome =
    | Handled(reg: Registry, emits: seq<Emit>, ack: bool)
    | Raised(exception: string)

  /** The answer to any event from a session that is not attached to a clipboard. */
  function ErrorTo(sid: Sid): Emit {
    Emit("error", NoPayload, To({sid}))
  }

  /** Whether session `sid` (connected to the server) receives `e`. */
  predicate Receives(e: Emit, sid: Sid) {
    match e.target
    case To(sids) => sid in sids
    case Everyone => true
  }

  /**
   * The recipients of `emit(..., to=others)`. An empty list is falsy, so the
   * library falls back to its default: every connected session.
   */
  function ListTarget(others: set<Sid>): (t: Target)
    ensures others != {} ==> t == To(others)
    ensures others == {} ==> t == Everyone
  {
    if others == {} then Everyone else To(others)
  }

  /** `GET /newclip`: register an empty clipboard under a freshly generated id. */
  function NewClipRoute(r: Registry, draws: seq<Draw>): (res: Option<(Registry, ClipId)>)
    requires forall i :: 0 <= i < |draws| ==> ValidDraw(draws[i])
    ensures res.Some? ==> var (r', id) := res.value;
              && id !in r.clips && IsPyId(id)
              && r'.clips == r.clips[id := NewClip()]
              && r'.allClients == r.allClients
    ensures res.None? ==> forall j :: 0 <= j < |draws| ==> FormatId(draws[j]) in r.clips
    ensures res.None? <==> GenerateId(r, draws).None?
    ensures res.Some? ==> res.value.1 == GenerateId(r, draws).value
  {
    match GenerateId(r, draws)
    case None => None
    case Some(id) => Some((r.(clips := r.clips[id := NewClip()]), id))
  }

  /** `connect`: attach `sid` to `clipId` and send it the current text, or answer `noclipboard`. */
  function HandleConnect(r: Registry, sid: Sid, clipId: ClipId): (o: Outcome)
    ensures o.Handled?
    ensures clipId !in r.clips ==> o == Handled(r, [Emit("noclipboard", NoPayload, To({sid}))], false)
    ensures clipId in r.clips ==>
              && o.reg.clips == r.clips[clipId := r.clips[clipId].(clients := r.clips[clipId].clients + {sid})]
              && o.reg.allClients == r.allClients[sid := clipId]
              && o.emits == [Emit("text", TextPayload(r.clips[clipId].contents), To({sid}))]
              && !o.ack
    ensures clipId in r.clips ==> forall id :: id in r.clips && id != clipId ==> o.reg.clips[id] == r.clips[id]
  {
    if clipId !in r.clips then
      Handled(r, [Emit("noclipboard", NoPayload, To({sid}))], false)
    else
      var clip := r.clips[clipId];
      var clip' := clip.(clients := clip.clients + {sid});
      Handled(Registry(r.clips[clipId := clip'], r.allClients[sid := clipId]),
              [Emit("text", TextPayload(clip.contents), To({sid}))], false)
  }

  /** `disconnect`: detach `sid` from its clipboard and forget it. */
  function HandleDisconnect(r: Registry, sid: Sid): (o: Outcome)
    ensures sid !in r.allClients ==> o == Handled(r, [ErrorTo(sid)], false)
    ensures o.Handled? && sid in r.allClients ==>
              && r.allClients[sid] in r.clips
              && o.emits == [] && !o.ack
              && o.reg.allClients == r.allClients - {sid}
              && o.reg.clips == r.clips[r.allClients[sid] :=
                                  r.clips[r.allClients[sid]].(clients := r.clips[r.allClients[sid]].clients - {sid})]
    ensures o.Raised? ==> sid in r.allClients && !Inv(r)
  {
    if sid !in r.allClients then Handled(r, [ErrorTo(sid)], false)
    else
      var clipId := r.allClients[sid];
      if clipId !in r.clips || sid !in r.clips[clipId].clients then Raised("KeyError")
      else
        var clip := r.clips[clipId];
        Handled(Registry(r.clips[clipId := clip.(clients := clip.clients - {sid})], r.allClients - {sid}),
                [], false)
  }

  /**
   * `text`, parameterised by how the list of other clients is addressed:
   * `emptyListBroadcasts` is the behaviour of the code as written.
   */
  function TextStep(r: Registry, sid: Sid, data: string, emptyListBroadcasts: bool): Outcome
  {
    if sid !in r.allClients then Handled(r, [ErrorTo(sid)], false)
    else
      var clipId := r.allClients[sid];
      if clipId !in r.clips then Raised("KeyError")
      else
        var clip := r.clips[clipId];
        var others := clip.clients - {sid};
        var target := if emptyListBroadcasts then ListTarget(others) else To(others);
        Handled(r.(clips := r.clips[clipId := clip.(contents := data)]),
                [Emit("text", TextPayload(data), target), Emit("sync", NoPayload, To({sid}))], false)
  }

  /** `text`: store the new text, forward it to the other clients of the clipboard and confirm with `sync`. */
  function HandleText(r: Registry, sid: Sid, data: string): (o: Outcome)
    ensures sid !in r.allClients ==> o == Handled(r, [ErrorTo(sid)], false)
    ensures o.Handled? && sid in r.allClients ==>
              var clipId := r.allClients[sid];
              && clipId in r.clips
              && o.reg.allClients == r.allClients
              && o.reg.clips == r.clips[clipId := r.clips[clipId].(contents := data)]
              && |o.emits| == 2
              && o.emits[0].event == "text" && o.emits[0].payload == TextPayload(data)
              && (forall s :: Receives(o.emits[0], s) <==> s in r.clips[clipId].clients && s != sid)
              && o.emits[1] == Emit("sync", NoPayload, To({sid}))
              && !o.ack
    ensures o.Raised? ==> sid in r.allClients && !Inv(r)
  {
    TextStep(r, sid, data, false)
  }

  /** The header of an upload: `numChunks`, `type` and `name` of the event data. */
  datatype FileHeader = FileHeader(numChunks: int, contentType: string, filename: string)

  /** `file`: start a new upload buffer on the sender's clipboard. */
  function HandleFile(r: Registry, sid: Sid, hdr: FileHeader): (o: Outcome)
    ensures sid !in r.allClients ==> o == Handled(r, [ErrorTo(sid)], false)
    ensures o.Handled? && sid in r.allClients ==>
              var clipId := r.allClients[sid];
              && clipId in r.clips
              && o.emits == [] && !o.ack
              && o.reg.allClients == r.allClients
              && o.reg.clips == r.clips[clipId := r.clips[clipId].(buffer :=
                   Some(FileBuffer(hdr.numChunks, hdr.contentType, hdr.filename, [], 0)))]
    ensures o.Raised? ==> sid in r.allClients && !Inv(r)
  {
    if sid !in r.allClients then Handled(r, [ErrorTo(sid)], false)
    else
      var clipId := r.allClients[sid];
      if clipId !in r.clips then Raised("KeyError")
      else
        var buffer := FileBuffer(hdr.numChunks, hdr.contentType, hdr.filename, [], 0);
        Handled(r.(clips := r.clips[clipId := r.clips[clipId].(buffer := Some(buffer))]), [], false)
  }

  /** `chunk`: append the next chunk in order, or answer `wrongchunk`. */
  function HandleChunk(r: Registry, sid: Sid, index: int, data: seq<byte>): (o: Outcome)
    ensures sid !in r.allClients ==> o == Handled(r, [ErrorTo(sid)], false)
    ensures o.Raised? ==> sid in r.allClients && !Inv(r)
    ensures o.Handled? && sid in r.allClients ==> r.allClients[sid] in r.clips
    ensures o.Handled? && sid in r.allClients && r.allClients[sid] in r.clips ==>
              var clip := r.clips[r.allClients[sid]];
              if clip.buffer.None? || index != clip.buffer.value.nextChunk then
                o == Handled(r, [Emit("wrongchunk", NoPayload, To({sid}))], false)
              else
                var b := clip.buffer.value;
                && o.emits == []
                && o.reg.allClients == r.allClients
                && o.reg.clips == r.clips[r.allClients[sid] := clip.(buffer :=
                     Some(b.(data := b.data + data, nextChunk := b.nextChunk + 1)))]
                && (o.ack <==> b.nextChunk + 1 < b.numChunks)
  {
    if sid !in r.allClients then Handled(r, [ErrorTo(sid)], false)
    else
      var clipId := r.allClients[sid];
      if clipId !in r.clips then Raised("KeyError")
      else
        var clip := r.clips[clipId];
        if clip.buffer.None? || index != clip.buffer.value.nextChunk then
          Handled(r, [Emit("wrongchunk", NoPayload, To({sid}))], false)
        else
          var b := clip.buffer.value;
          var b' := b.(data := b.data + data, nextChunk := b.nextChunk + 1);
          Handled(r.(clips := r.clips[clipId := clip.(buffer := Some(b'))]), [], b'.nextChunk < b'.numChunks)
  }

  // ----- the code as written, where it departs from the intended behaviour -----

  /** `text` as written: when the sender is alone, the empty recipient list turns into a broadcast. */
  function HandleTextAsWritten(r: Registry, sid: Sid, data: string): (o: Outcome)
    ensures sid in r.allClients && r.allClients[sid] in r.clips && r.clips[r.allClients[sid]].clients <= {sid} ==>
              o.Handled? && |o.emits| == 2 && o.emits[0] == Emit("text", TextPayload(data), Everyone)
  {
    TextStep(r, sid, data, true)
  }

  /**
   * `chunk` as written: a clipboard whose `file` event never arrived has no
   * `buffer` attribute, so reading it raises before the `not buffer` test.
   */
  function HandleChunkAsWritten(r: Registry, sid: Sid, index: int, data: seq<byte>): (o: Outcome)
    ensures sid in r.allClients && r.allClients[sid] in r.clips && r.clips[r.allClients[sid]].buffer.None? ==>
              o == Raised("AttributeError")
    ensures !(sid in r.allClients && r.allClients[sid] in r.clips && r.clips[r.allClients[sid]].buffer.None?) ==>
              o == HandleChunk(r, sid, index, data)
  {
    if sid in r.allClients && r.allClients[sid] in r.clips && r.clips[r.allClients[sid]].buffer.None? then
      Raised("AttributeError")
    else
      HandleChunk(r, sid, index, data)
  }

  /** A freshly connected client sends text before anyone else joins: it receives its own text back. */
  lemma LoneSenderGetsOwnText()
    ensures var r := Registry(map["abc-def-7" := Clip("", {"s1"}, None)], map["s1" := "abc-def-7"]);
            var o := HandleTextAsWritten(r, "s1", "hi");
            o.Handled? && o.emits[0].event == "text" && Receives(o.emits[0], "s1")
  {
  }

  /** A chunk sent before any header crashes the handler instead of answering `wrongchunk`. */
  lemma ChunkBeforeHeaderRaises()
    ensures var r := Registry(map["abc-def-7" := NewClip().(clients := {"s1"})], map["s1" := "abc-def-7"]);
            && HandleChunkAsWritten(r, "s1", 0, []) == Raised("AttributeError")
            && HandleChunk(r, "s1", 0, []) == Handled(r, [Emit("wrongchunk", NoPayload, To({"s1"}))], false)
  {
  }

  // ----- invariants -----

  /** The sender never receives the text it sent. */
  lemma TextNeverEchoes(r: Registry, sid: Sid, data: string)
    ensures HandleText(r, sid, data).Handled? && sid in r.allClients ==>
              !Receives(HandleText(r, sid, data).emits[0], sid)
  {
  }

  /** While the registry is consistent, no handler raises. */
  lemma NoRaiseUnderInv(r: Registry, sid: Sid, clipId: ClipId, data: string, hdr: FileHeader,
                        index: int, bytes: seq<byte>)
    requires Inv(r)
    ensures HandleDisconnect(r, sid).Handled?
    ensures HandleText(r, sid, data).Handled?
    ensures HandleFile(r, sid, hdr).Handled?
    ensures HandleChunk(r, sid, index, bytes).Handled?
  {
  }

  lemma NewClipPreservesInv(r: Registry, draws: seq<Draw>)
    requires forall i :: 0 <= i < |draws| ==> ValidDraw(draws[i])
    requires Inv(r)
    ensures NewClipRoute(r, draws).Some? ==> Inv(NewClipRoute(r, draws).value.0)
    ensures ClientsRegistered(r) && NewClipRoute(r, draws).Some? ==>
              ClientsRegistered(NewClipRoute(r, draws).value.0)
  {
  }

  /** Connecting keeps every client pointing at a clipboard that lists it; a fresh session also keeps the converse. */
  lemma ConnectPreservesInv(r: Registry, sid: Sid, clipId: ClipId)
    requires Inv(r)
    ensures Inv(HandleConnect(r, sid, clipId).reg)
    ensures ClientsRegistered(r) && sid !in r.allClients ==> ClientsRegistered(HandleConnect(r, sid, clipId).reg)
  {
    var o := HandleConnect(r, sid, clipId);
    if clipId in r.clips {
      forall s | s in o.reg.allClients
        ensures o.reg.allClients[s] in o.reg.clips && s in o.reg.clips[o.reg.allClients[s]].clients
      {
        if s != sid {
          var id := r.allClients[s];
          assert id in r.clips && s in r.clips[id].clients;
        }
      }
    }
  }

  lemma DisconnectPreservesInv(r: Registry, sid: Sid)
    requires Inv(r)
    ensures HandleDisconnect(r, sid).Handled?
    ensures Inv(HandleDisconnect(r, sid).reg)
    ensures ClientsRegistered(r) ==> ClientsRegistered(HandleDisconnect(r, sid).reg)
  {
    var o := HandleDisconnect(r, sid);
    if sid in r.allClients {
      var home := r.allClients[sid];
      forall s | s in o.reg.allClients
        ensures o.reg.allClients[s] in o.reg.clips && s in o.reg.clips[o.reg.allClients[s]].clients
      {
        var id := r.allClients[s];
        assert id in r.clips && s in r.clips[id].clients;
      }
    }
  }

  /** `text`, `file` and `chunk` never touch who is attached where. */
  lemma DataHandlersPreserveInv(r: Registry, sid: Sid, data: string, hdr: FileHeader, index: int, bytes: seq<byte>)
    requires Inv(r)
    ensures Inv(HandleText(r, sid, data).reg)
    ensures Inv(HandleFile(r, sid, hdr).reg)
    ensures Inv(HandleChunk(r, sid, index, bytes).reg)
    ensures ClientsRegistered(r) ==>
              && ClientsRegistered(HandleText(r, sid, data).reg)
              && ClientsRegistered(HandleFile(r, sid, hdr).reg)
              && ClientsRegistered(HandleChunk(r, sid, index, bytes).reg)
  {
  }
}

=== FILE: rust_engine.dfy ===
/**
 * The Rust server's clipboard registry: identifier generation, the
 * membership check and the registry effect of attaching a client. The
 * per-clipboard and per-client tasks and channels are not modelled.
 */
module RustEngine {
  import opened Wrappers
  import opened RustResult

  type ClipboardId = string
  /** A client's UUID, drawn by the caller. */
  type ClientId = nat

  datatype Clipboard = Clipboard(contents: string, clients: set<ClientId>)

  datatype Engine = Engine(clipboards: map<ClipboardId, Clipboard>)

  function NewEngine(): (e: Engine)
    ensures e.clipboards == map[]
  {
    Engine(map[])
  }

  /** `Clipboard::start`'s initial value: empty contents, no clients. */
  function Start(): (c: Clipboard)
    ensures c.contents == "" && c.clients == {}
  {
    Clipboard("", {})
  }

  predicate IsAlnum(c: char) {
    'a' <= c <= 'z' || 'A' <= c <= 'Z' || '0' <= c <= '9'
  }

  predicate IsLowerAlnum(c: char) {
    'a' <= c <= 'z' || '0' <= c <= '9'
  }

  /** One sample of the `Alphanumeric` distribution. */
  type AlnumChar = c: char | IsAlnum(c) witness 'a'

  /** One round of `generate`'s loop: six samples. */
  type Draw = s: seq<AlnumChar> | |s| == 6 witness ['a', 'a', 'a', 'a', 'a', 'a']

  function ToAsciiLowercase(c: char): (l: char)
    ensures IsAlnum(c) ==> IsLowerAlnum(l)
    ensures IsLowerAlnum(c) ==> l == c
  {
    if 'A' <= c <= 'Z' then (c as int + 32) as char else c
  }

  /** The `enumerate().flat_map(..)` step: a '-' follows the characters at positions 1 and 3. */
  function Spread(xs: seq<char>, i: nat): seq<char>
  {
    if |xs| == 0 then []
    else (if i == 1 || i == 3 then [xs[0], '-'] else [xs[0]]) + Spread(xs[1..], i + 1)
  }

  /** The lower-cased samples of one draw. */
  function Lowered(d: Draw): (l: seq<char>)
    ensures |l| == 6 && forall i :: 0 <= i < 6 ==> l[i] == ToAsciiLowercase(d[i])
  {
    seq(6, i requires 0 <= i < 6 => ToAsciiLowercase(d[i]))
  }

  /** The identifier built from one draw. */
  function IdOf(d: Draw): ClipboardId
  {
    Spread(Lowered(d), 0)
  }

  lemma SpreadSix(l: seq<char>)
    requires |l| == 6
    ensures Spread(l, 0) == [l[0], l[1], '-', l[2], l[3], '-', l[4], l[5]]
  {
    assert Spread(l[6..], 6) == [];
    assert Spread(l[5..], 5) == [l[5]] + Spread(l[6..], 6);
    assert Spread(l[4..], 4) == [l[4]] + Spread(l[5..], 5);
    assert Spread(l[3..], 3) == [l[3], '-'] + Spread(l[4..], 4);
    assert Spread(l[2..], 2) == [l[2]] + Spread(l[3..], 3);
    assert Spread(l[1..], 1) == [l[1], '-'] + Spread(l[2..], 2);
    assert Spread(l, 0) == [l[0]] + Spread(l[1..], 1);
  }

  /** The shape `ab-cd-ef` over lower-case letters and digits. */
  predicate IsRustId(id: string) {
    && |id| == 8 && id[2] == '-' && id[5] == '-'
    && forall i :: 0 <= i < 8 && i != 2 && i != 5 ==> IsLowerAlnum(id[i])
  }

  /** The six characters of an id, without its dashes. */
  function Undash(id: string): string
    requires |id| == 8
  {
    id[0..2] + id[3..5] + id[6..8]
  }

  /** A generated id is the six lower-cased samples with a '-' after the second and the fourth. */
  lemma IdOfShape(d: Draw)
    ensures IsRustId(IdOf(d))
    ensures Undash(IdOf(d)) == Lowered(d)
  {
    SpreadSix(Lowered(d));
  }

  /**
   * `generate`: the first drawn id not already a clipboard, registered with an
   * empty clipboard; `None` when every draw collides (the loop would go on).
   */
  function Generate(e: Engine, draws: seq<Draw>): (res: Option<(Engine, ClipboardId)>)
    ensures res.Some? ==> var (e', id) := res.value;
              && id !in e.clipboards
              && IsRustId(id)
              && e'.clipboards == e.clipboards[id := Start()]
              && |e'.clipboards| == |e.clipboards| + 1
              && exists k :: 0 <= k < |draws| && id == IdOf(draws[k])
                   && forall j :: 0 <= j < k ==> IdOf(draws[j]) in e.clipboards
    ensures res.None? <==> forall j :: 0 <= j < |draws| ==> IdOf(draws[j]) in e.clipboards
  {
    if |draws| == 0 then None
    else
      var id := IdOf(draws[0]);
      if id !in e.clipboards then
        IdOfShape(draws[0]);
        Some((Engine(e.clipboards[id := Start()]), id))
      else
        var rest := Generate(e, draws[1..]);
        assert forall j :: 1 <= j < |draws| ==> draws[j] == draws[1..][j - 1];
        if rest.Some? then
          var k :| 0 <= k < |draws[1..]| && rest.value.1 == IdOf(draws[1..][k])
                   && forall j :: 0 <= j < k ==> IdOf(draws[1..][j]) in e.clipboards;
          assert rest.value.1 == IdOf(draws[k + 1]);
          rest
        else
          rest
  }

  /** `check`: whether a clipboard is registered under `id`. */
  function Check(e: Engine, id: string): bool
  {
    id in e.clipboards
  }

  /** `connect`'s registry effect: add client `cid` to the clipboard, or fail with `InvalidId`. */
  function Connect(e: Engine, clipId: string, cid: ClientId): (r: Result<Engine, Error>)
    ensures clipId !in e.clipboards ==> r == Failure(InvalidId)
    ensures clipId in e.clipboards ==> r.Success? && r.value.clipboards.Keys == e.clipboards.Keys
    ensures clipId in e.clipboards && r.Success? && clipId in r.value.clipboards ==>
              var before := e.clipboards[clipId];
              var after := r.value.clipboards[clipId];
              && after.contents == before.contents
              && after.clients == before.clients + {cid}
              && (cid !in before.clients ==> |after.clients| == |before.clients| + 1)
              && forall id :: id in e.clipboards && id != clipId ==> r.value.clipboards[id] == e.clipboards[id]
  {
    if clipId !in e.clipboards then Failure(InvalidId)
    else
      var clip := e.clipboards[clipId];
      Success(Engine(e.clipboards[clipId := clip.(clients := clip.clients + {cid})]))
  }

  /** `connect` succeeds exactly on the ids `check` accepts. */
  lemma ConnectAgreesWithCheck(e: Engine, clipId: string, cid: ClientId)
    ensures Connect(e, clipId, cid).Success? <==> Check(e, clipId)
  {
  }

  /** A freshly generated id passes `check` and accepts its first client. */
  lemma GenerateThenConnect(e: Engine, draws: seq<Draw>, cid: ClientId)
    requires Generate(e, draws).Some?
    ensures var (e', id) := Generate(e, draws).value;
            && Check(e', id)
            && Connect(e', id, cid).Success?
            && Connect(e', id, cid).value.clipboards[id] == Clipboard("", {cid})
  {
  }
}

=== FILE: rust_result.dfy ===
/** The Rust server's error type and its translation into a wire message. */
module RustResult {
  import opened Wrappers
  import opened Pb

  datatype Error = InvalidId | InvalidCid | UnexpectedMessage(detail: string) | Unknown(cause: string)

  /** Any standard error, of which only its message is kept. */
  datatype StdError = StdError(message: string)

  const InvalidIdDesc := "Invalid ID"
  const UnexpectedDesc := "Unexpected message"
  const InternalDesc := "Internal Server Error"

  /** What a client is told: the id was bad, the message was unexpected, or something internal failed. */
  datatype Class = BadId | BadMessage | Internal

  function ClassOf(e: Error): Class {
    match e
    case InvalidId => BadId
    case UnexpectedMessage(_) => BadMessage
    case _ => Internal
  }

  /** `Error::serialize`: a message whose only case is a (non-fatal) error describing the class of `e`. */
  function Serialize(e: Error): (m: Message)
    ensures GetErr(Some(m)).Some? && CaseCount(Some(m)) == 1
    ensures !GetErr(Some(m)).value.fatal
    ensures e.InvalidId? ==> GetDesc(GetErr(Some(m))) == "Invalid ID"
    ensures e.UnexpectedMessage? ==> GetDesc(GetErr(Some(m))) == "Unexpected message"
    ensures e.InvalidCid? || e.Unknown? ==> GetDesc(GetErr(Some(m))) == "Internal Server Error"
  {
    match e
    case InvalidId => ErrorMessage(InvalidIdDesc, false)
    case UnexpectedMessage(_) => ErrorMessage(UnexpectedDesc, false)
    case _ => ErrorMessage(InternalDesc, false)
  }

  /** Two errors serialize alike exactly when they are of the same class: payloads never leak. */
  lemma SerializeByClass(e1: Error, e2: Error)
    ensures Serialize(e1) == Serialize(e2) <==> ClassOf(e1) == ClassOf(e2)
  {
    if ClassOf(e1) != ClassOf(e2) {
      assert GetDesc(GetErr(Some(Serialize(e1)))) != GetDesc(GetErr(Some(Serialize(e2))));
    }
  }

  /** `From<E>`: every standard error becomes `Unknown`, which clients see as an internal error. */
  function FromStd(e: StdError): (r: Error)
    ensures r.Unknown? && r.cause == e.message
    ensures GetDesc(GetErr(Some(Serialize(r)))) == "Internal Server Error"
  {
    Unknown(e.message)
  }
}

=== FILE: scalars.dfy ===
/** Fixed-width scalar types used on the wire. */
module Scalars {

  /** One octet of a payload. */
  newtype byte = x: int | 0 <= x < 0x100

  /** Protobuf `int32` fields (`numChunks`, `index`). */
  newtype int32 = x: int | -0x8000_0000 <= x < 0x8000_0000

  /** Go's `int` on a 64-bit platform, the range `encoding/json` accepts for an `int` field. */
  predicate InInt64(n: int) {
    -0x8000_0000_0000_0000 <= n < 0x8000_0000_0000_0000
  }
}

=== FILE: wrappers.dfy ===
/** Failure-compatible wrappers shared by every module of the model. */
module Wrappers {

  /** A value that may be absent: a nil pointer, a missing attribute, an exhausted draw sequence. */
  datatype Option<+T> = None | Some(value: T) {
    predicate IsFailure() { None? }

    function PropagateFailure<U>(): Option<U>
      requires None?
    {
      None
    }

    function Extract(): T
      requires Some?
    {
      value
    }
  }

  /** Either a value or an error, the shape of Go's `(T, error)` and Rust's `Result<T, E>`. */
  datatype Result<+R, +E> = Success(value: R) | Failure(error: E) {
    predicate IsFailure() { Failure? }

    function PropagateFailure<U>(): Result<U, E>
      requires Failure?
    {
      Failure(error)
    }

    function Extract(): R
      requires Success?
    {
      value
    }
  }
}
